=== FILE: README.md ===
# HR assistant conversation core, in Dafny

This project models the core of a small conversational HR assistant written in Python. A
user types a line. The line is either classified into an intent (keyword hints plus a local
language model) or, when a multi-step flow is waiting for data, taken as a follow-up. The
orchestrator keeps one session state: the current intent, the data collected so far and the
field it expects next. When a flow has what it needs, the orchestrator calls an agent and
resets the state:

- the employee agent registers employees and finds them by id or name;
- the report agent checks a day's attendance and computes the worked time;
- the attendance agent reads one day's attendance row;
- the entity normalizer resolves an employee from loose data, id before name;
- the vector store cuts the policy text into one document per heading.

Everything is modelled with immutable datatypes and pure functions. A step takes the session
state and the store and returns the reply, the next state and the store.

| file | module | source |
|---|---|---|
| common.dfy | `Common` | Python's `None` and truthiness |
| strings.dfy | `Strings` | `str.strip`, `lower`, `upper`, `find`, `split`, `int()` |
| database.dfy | `Database` | db/database.py, as tables held in sequences |
| employee_agent.dfy | `EmployeeAgent` | agents/employee_agent.py |
| entity_normalizer.dfy | `EntityNormalizer` | utils/entity_normalizer.py |
| report_agent.dfy | `ReportAgent` | agents/report_agent.py |
| attendance_agent.dfy | `AttendanceAgent` | agents/attendance_agent.py |
| intent_parser.dfy | `IntentParser` | utils/intent_parser.py |
| vector_store.dfy | `VectorStore` | utils/vector_store.py (`load`, `search`) |
| orchestrator.dfy | `Orchestrator` | orchestrator.py |
| session.dfy | `Session` | the input loop of main.py |

How values are represented:

- A field value is an `Option<string>`. Both `None` and `""` count as missing, as in
  Python's `not value`.
- The employee table is a sequence in rowid order, together with the AUTOINCREMENT counter.
  The email is unique.
- The attendance table is a sequence of rows. Rows are not unique per (employee, date). A
  lookup returns the first matching row, and setting the end time updates every matching row.
- Employee ids arrive as text. SQLite compares text with its INTEGER column by numeric
  affinity: the model reads an optionally signed decimal number between ASCII whitespace
  (`Database.SqlIntValue`). The entity normalizer uses Python's `int()` instead, which also
  strips Unicode whitespace (`Strings.IntValue`).
- The clock's date (`today`) is a parameter. So are the language model's reply, the JSON
  decoder and the index the FAISS search picks.

Facts of the code that shape the model:

- The parser can answer `assign_working_hours` and `attendance_info`
  (utils/intent_parser.py:53-54, 104-123), but `handle_intent` has no branch for either. Both
  fall through to "Sorry, I cannot handle this request" (orchestrator.py:268-273,
  `Orchestrator.ParserOnlyIntentsRefused`).
- For `start_work`, `end_work`, `daily_report` and `check_attendance_summary` the follow-up
  input is never stored. While `employee_id` is missing, the same prompt comes back for ever
  (orchestrator.py:70-80, `Orchestrator.EmployeeFlowRepromptsForever`).
- The orchestrator calls `start_work` and `end_work` on the attendance agent, which has no
  such methods (orchestrator.py:120-149). Neither the orchestrator nor the loop in main.py
  catches exceptions, so in the program every such flow that reaches its handler ends the
  whole session with an AttributeError. The model replaces both calls with replies that
  record the call and its arguments.
- Seeding a flow stores every truthy field of the parsed intent, the `"intent"` entry
  included.

## Model

| member | source | states |
|---|---|---|
| Orchestrator.FlowNamed | orchestrator.py:222-265 | exactly the five stateful intent strings open a flow, each the flow of that name; every other string opens none |
| Orchestrator.FlowNamedIntentName | orchestrator.py:222-265 | the intent string stored for a flow opens that same flow again |
| Orchestrator.IdleInv | orchestrator.py:18-36 | the fresh and reset state has no intent, no data and no expected field, is not active, and satisfies the session invariant |
| Orchestrator.MissingFields | orchestrator.py:88-94 | the missing fields are exactly the declared fields without a truthy value, in declared order and without repeats |
| Orchestrator.SplitValues | orchestrator.py:47 | every value is non-empty and stripped; the values are the non-empty stripped comma pieces, in input order |
| Orchestrator.SplitValuesCounts | orchestrator.py:47 | every non-empty stripped piece is kept exactly as often as it was typed; only empty pieces are dropped |
| Orchestrator.SplitValuesJoin | orchestrator.py:47 | non-empty stripped values without commas, typed comma-separated, are read back exactly |
| Orchestrator.AssignFirst | orchestrator.py:60-63 | after n rounds the i-th value sits under the i-th missing field; no other key is added or changed |
| Orchestrator.Assign | orchestrator.py:60-63 | the i-th value fills the i-th missing field; surplus values are dropped; filled fields and other keys are untouched |
| Orchestrator.AssignValues | orchestrator.py:47-63 | the i-th non-empty comma value of the follow-up goes to the i-th still-missing registration field; surplus values are dropped; nothing else changes |
| Orchestrator.ContinueRegister | orchestrator.py:88-116 | with a field missing: prompt listing exactly the missing fields, first one expected, data and store unchanged; with all three: register with the collected values and reset whatever the result; reset happens iff all three are filled |
| Orchestrator.ContinueEmployeeFlow | orchestrator.py:120-191 | without a truthy employee_id: prompt for it, expect it, state otherwise unchanged; with it: the flow's handler is called with id and date (and start/end time) from the collected data, state reset, store unchanged |
| Orchestrator.HandleFollowup | orchestrator.py:41-83 | no active flow: "something went wrong" and nothing changes; registration: values assigned to missing fields, then completion check; other flows: completion check on the unchanged data |
| Orchestrator.TruthyEntries | orchestrator.py:224-226 | exactly the fields with a truthy value, with those values |
| Orchestrator.Seed | orchestrator.py:223-226 | the flow becomes current; `pending_data` gains every truthy parsed field, with the parsed value winning; other entries and the expected field are kept |
| Orchestrator.HandleIntent | orchestrator.py:196-273 | greeting, help, find_employee and hr_policy answer without touching state or store; a stateful intent seeds its flow and runs its completion check; anything else is refused with state and store unchanged |
| Orchestrator.ContinueInv | orchestrator.py:88-191 | a completion check on a seeded state always ends in a state where an intent is active exactly when a field is expected |
| Orchestrator.HandleIntentInv | orchestrator.py:196-273 | `handle_intent` keeps the session invariant |
| Orchestrator.AssignValuesSeeded | orchestrator.py:47-63 | a registration follow-up stores only non-empty values and never replaces the recorded intent |
| Orchestrator.HandleFollowupInv | orchestrator.py:41-83 | `handle_followup` keeps the session invariant |
| Orchestrator.EmployeeFlowRepromptsForever | orchestrator.py:70-80 | in an id-keyed flow the follow-up input is ignored: the reply is the id prompt and the state and store are exactly as before |
| Orchestrator.EmployeeFlowCompletesIff | orchestrator.py:120-191 | an id-keyed flow completes iff a truthy employee_id was collected; otherwise data and intent are kept |
| Orchestrator.HandleIntentSeeds | orchestrator.py:222-265 | a stateful intent that stays open holds that intent and every truthy parsed field, the intent entry included, and nothing falsy from the parse |
| Orchestrator.ParserOnlyIntentsRefused | orchestrator.py:268-273 | assign_working_hours and attendance_info are refused and change nothing |
| Orchestrator.NoneMissing | orchestrator.py:91-97 | with name, email and department filled nothing is missing |
| Orchestrator.RegisterAsksForRest | orchestrator.py:222-227 | a registration intent carrying only a name prompts for email then department and expects email |
| Orchestrator.RegisterCompletesWithRest | orchestrator.py:47-65 | answering that prompt with "email,department" registers exactly name, email and department and resets |
| Session.MainStep | main.py:14-33 | exit iff the stripped line is "exit" in lower case; exit and not-understood change nothing; an active flow gets the stripped line as a follow-up; otherwise "unknown" is not understood and any other intent goes to `handle_intent` unchanged |
| Session.ExitInAnyCase | main.py:15-19 | the exit word matches in any mix of letter case and nothing else matches |
| Session.FollowupIgnoresClassifier | main.py:22-23 | while a flow is active the classifier's answer makes no difference |
| Session.ModelFailureNotUnderstood | main.py:25-29 | when the model's answer cannot be used, an idle session says it did not understand and changes nothing |
| Session.MainStepInv | main.py:14-33 | every turn keeps the session invariant |
| IntentParser.Schema | utils/intent_parser.py:14-24 | the nine schema keys, all None |
| IntentParser.FallbackIntent | utils/intent_parser.py:67-68 | the schema keys, intent "unknown", every other value None |
| IntentParser.ExtractJson | utils/intent_parser.py:71-81 | fails iff '{' or '}' is absent; empty iff no '{' precedes a '}'; otherwise a slice of the text from a '{' with none before it to a '}' with none after it |
| IntentParser.FirstMatch | utils/intent_parser.py:84-138 | None iff no rule matches; otherwise the intent of the first matching rule |
| IntentParser.Hint | utils/intent_parser.py:84-138 | the hint of a raw input is the first row of the priority table matching the input lower-cased and stripped |
| IntentParser.HintOf | utils/intent_parser.py:89-138 | a hint is always one of the seven intents the keyword checks name |
| IntentParser.HintIsFirstMatch | utils/intent_parser.py:89-138 | the hint is the first match of the priority table greeting, help, register, working hours, attendance, report, policy |
| IntentParser.GreetingOnlyExact | utils/intent_parser.py:89-93 | the hint is greeting iff the prepared text is exactly hi, hello, hey or hii |
| IntentParser.RegisterNeedsBoth | utils/intent_parser.py:100-101 | the register hint needs both "register" and "employee" |
| IntentParser.NoKeywordNoHint | utils/intent_parser.py:96-138 | no hint iff no rule of the table matches |
| IntentParser.MergeSchema | utils/intent_parser.py:167 | every schema key and every parsed key present, the parsed value winning |
| IntentParser.PostProcess | utils/intent_parser.py:166-181 | schema keys present; a hint overrides the intent; date "today" becomes the current date; an hr_policy intent with a falsy query gets the raw input; other fields as parsed |
| IntentParser.ParseIntent | utils/intent_parser.py:145-181 | every schema key present; any failure of the call, the extraction or the decoding gives the fallback; otherwise the post-processed fields |
| EmployeeAgent.RegisterEmployee | agents/employee_agent.py:22-45 | a known email is refused with the table unchanged; otherwise the id is the next AUTOINCREMENT value and the table is the old rows with the new row appended last, the department stripped and upper-cased; the table stays valid |
| EmployeeAgent.FindEmployee | agents/employee_agent.py:47-99 | an id that is not None decides alone (found or not found); by name: not found iff no row has the name, found with that row iff exactly one does, otherwise all matches exactly as `get_employee_by_name` lists them; neither given: error |
| EmployeeAgent.FindByName | agents/employee_agent.py:73-94 | the number of rows with the name picks the outcome: none is not found, one is that row (and the only row with the name), several are returned as the exact list of matches |
| EmployeeAgent.FindByIdIgnoresName | agents/employee_agent.py:58-70 | with an id given the name makes no difference |
| EmployeeAgent.RegisteredIsFound | agents/employee_agent.py:37-45 | a freshly registered employee is found under the returned id with the stored department |
| EmployeeAgent.SecondRegistrationRefused | agents/employee_agent.py:32-36 | a second registration with the same email is refused and stores nothing |
| EntityNormalizer.NormalizeEmployee | utils/entity_normalizer.py:11-81 | a truthy id decides: not a number, unknown, or resolved; otherwise a truthy name: unknown iff no row has it, resolved to that row iff exactly one does, otherwise ambiguous with the match list exactly as `get_employee_by_name` gives it; neither: error |
| EntityNormalizer.ResolveByName | utils/entity_normalizer.py:47-73 | no row with the name is an unknown name, exactly one resolves to that row, several are ambiguous with the exact match list |
| EntityNormalizer.IdTakesPriority | utils/entity_normalizer.py:22-42 | with a truthy id the name makes no difference |
| EntityNormalizer.AgreesWithFindByName | utils/entity_normalizer.py:47-73 | by name the normalizer and `find_employee` reach the same verdict and the same employees |
| EntityNormalizer.AgreesWithFindById | utils/entity_normalizer.py:22-42 | by an id SQLite reads as a number, the normalizer and `find_employee` reach the same verdict |
| EntityNormalizer.PaddedIdDisagreement | utils/entity_normalizer.py:22-26 | an id with a no-break space before the digits resolves in the normalizer (`int()` strips it) but is not found by `find_employee` (SQLite keeps the text) |
| EntityNormalizer.EmptyIdDisagreement | utils/entity_normalizer.py:22-23 | an empty id string is absent to the normalizer (the name resolves) but is looked up by `find_employee` (not found) |
| ReportAgent.ParseClock | agents/report_agent.py:51-52 | a parsed "%H:%M" time is a minute of the day |
| ReportAgent.ParseFormatClock | agents/report_agent.py:51-52 | every "HH:MM" rendering reads back as its minute |
| ReportAgent.WorkingSeconds | agents/report_agent.py:54 | below a day; the plain difference when the end is not before the start; wraps past midnight otherwise |
| ReportAgent.GenerateDailyReport | agents/report_agent.py:10-76 | employee missing, then row missing, then start missing, then end missing, each exactly when the earlier checks pass; a report carries the employee's record, the date defaulted to today, the stored times and the worked seconds |
| ReportAgent.ReadyIffComplete | agents/report_agent.py:20-76 | a report is produced iff employee, row and both well-formed times are present |
| AttendanceAgent.GetAttendance | agents/attendance_agent.py:9-28 | None iff no row for the day; otherwise the id and the date (defaulted to today) echoed and the stored times copied unchanged |
| Common.DateOrToday | agents/attendance_agent.py:15-16 | a truthy date is kept; a falsy one becomes today |
| VectorStore.SplitLines | utils/vector_store.py:33 | no line holds a line break; empty text has no lines |
| VectorStore.SplitLinesConcat | utils/vector_store.py:33 | the lines written back to back are the text with only its line-boundary characters removed |
| VectorStore.SplitLinesTerminated | utils/vector_store.py:33 | lines without boundaries, each ended by a newline, are split back into exactly those lines, with no empty line for the final newline |
| VectorStore.CleanLines | utils/vector_store.py:33-39 | only stripped non-empty lines remain |
| VectorStore.CleanLinesReference | utils/vector_store.py:33-37 | the cleaned lines are the stripped lines with the blank ones left out |
| VectorStore.CleanLinesKeepsLines | utils/vector_store.py:33-37 | every non-blank line survives, stripped, in order and as often as it occurs |
| VectorStore.IsHeading | utils/vector_store.py:40 | a heading is never empty and never holds a lower-case letter |
| VectorStore.GroupsFlatten | utils/vector_store.py:33-46 | the groups hold the cleaned lines, each once and in order |
| VectorStore.GroupsWellGrouped | utils/vector_store.py:40-46 | every group is non-empty, every group but the first opens with a heading, and no heading appears after a group's first line |
| VectorStore.DocumentsTrimmed | utils/vector_store.py:41-49 | every document is stripped and non-empty |
| VectorStore.HeadingStep | utils/vector_store.py:40-44 | a heading flushes the stripped buffer as a document and starts a new buffer |
| VectorStore.TextStep | utils/vector_store.py:45-46 | any other line is appended to the buffer after one space |
| VectorStore.FlushBuffer | utils/vector_store.py:48-49 | the final buffer is non-empty iff there is a last group, and its stripped text is the last document |
| VectorStore.Load | utils/vector_store.py:18-54 | the documents are those of the heading split; no document is the ValueError, which leaves the index as it was |
| VectorStore.Search | utils/vector_store.py:72-85 | None for a falsy query, before `load`, or when the nearest position is outside the documents; otherwise the document at that position |
| VectorStore.SearchAfterLoad | utils/vector_store.py:51-85 | after a `load` that found documents, a search returns the stripped, non-empty document the index picks, or None when the position is out of range |
| Database.AddEmployee | db/database.py:66-84 | refused iff the email exists; otherwise one row appended under the next id, and the table stays valid |
| Database.EmployeeById | db/database.py:105-130 | a row with that id, or None iff there is none |
| Database.EmployeeByIdUnique | db/database.py:39-41 | in a valid table the lookup by a row's id gives that row |
| Database.EmployeesByName | db/database.py:133-159 | exactly the rows with that name, each as often as in the table, in table order |
| Database.SqlKeyIsInt | db/database.py:113-117 | a text key SQLite reads as a number is read by `int()` as the same number |
| Database.NoBreakSpaceKey | db/database.py:113-117 | a key with a no-break space before "1" is 1 to `int()` but no number to SQLite |
| Database.ShowNatSqlKey | db/database.py:113-117 | the decimal form of an id is a key SQLite reads as that id |
| Database.EmployeeByKey | db/database.py:105-130 | a row iff SQLite reads the key as an integer (sign and ASCII whitespace allowed) and a row has that id; the row found has that id |
| Database.AttendanceIndex | db/database.py:199-224 | the first row for (employee, date), or None iff there is none |
| Database.AttendanceFor | db/database.py:199-224 | None iff no row is for (employee, date); otherwise the earliest such row, as `fetchone` returns it |
| Database.FirstDayRowUnique | db/database.py:213 | the earliest row for (employee, date) is unique, so the row returned is determined |
| Database.AttendanceByKey | db/database.py:199-224 | a row iff SQLite reads the key as an integer and a row matches that id and date; the row found is the earliest such row |
| Database.AddStartTime | db/database.py:166-179 | appends one row with the start time and no end time |
| Database.AddEndTime | db/database.py:182-196 | sets the end time of every row for (employee, date) and of no other |
| Database.SecondStartIsShadowed | db/database.py:166-213 | a second start for a day is stored but the lookup keeps returning the first row |
| Database.FirstStartIsRead | db/database.py:166-213 | the first start for a day is what the lookup returns |
| Database.EndTimeIsRead | db/database.py:182-213 | after an end time is set, the looked-up row carries it and is otherwise unchanged |

## Left out

- The language model call (utils/ai_client.py) and `json.loads`: `parse_intent` takes the reply and a decoder as parameters. JSON values that are not strings (numbers, booleans, nested objects) are not modelled.
- SQLite itself: connections, `create_tables` (run when db/database.py is imported), the file, and foreign keys. The tables are sequences.
- Strings.IntValue: reads an optionally signed run of ASCII digits after stripping. Python's `int()` also accepts underscores between digits and Unicode digits; these are not modelled.
- Database.SqlIntValue: reads an optionally signed run of ASCII digits between ASCII whitespace. SQLite's numeric affinity also converts real literals with an integral value, such as "5.0" or "1e0", which then equal the INTEGER id; these are not modelled.
- Strings.Lower and Strings.Upper: ASCII letters only. Python maps many other characters, some of them onto ASCII letters: U+212A KELVIN SIGN lowers to 'k', so "START WOR\u212A" gets the `assign_working_hours` hint in the program but no hint here, and U+0130 lowers to "i" followed by a combining dot. No other character lowers to exactly one of 'e', 'x', 'i' or 't' (U+0130 gives two characters), so `Session.IsExit` is exact. Such inputs to `IntentParser.Hint`, and non-ASCII departments upper-cased by `EmployeeAgent.RegisterEmployee`, are not modelled faithfully.
- ReportAgent.ParseClock: ASCII digits only. Python's `strptime` also accepts other Unicode decimal digits.
- ReportAgent.GenerateDailyReport: the PDF (utils/report_generator.py) is not rendered. The result carries the data handed to the renderer instead of a file path. The hours rounded to two decimals are kept as whole seconds, because floating point is not modelled. A `strptime` failure, which raises in the program, is the `BadTimeFormat` result.
- Orchestrator.ContinueEmployeeFlow: `start_work` and `end_work` do not exist on the attendance agent. In the program those calls raise AttributeError, and since nothing catches it, the program ends. Here they are replies recording the arguments, the state resets as for the other handlers, and the session goes on.
- Exceptions: neither orchestrator.py nor main.py has a try/except, so any exception a handler raises ends the program. Besides the missing attendance methods, this happens when a stored time is not "%H:%M" (agents/report_agent.py:51-52), which the model turns into the `BadTimeFormat` report. No modelled step ends the session other than "exit".
- VectorStore.IsHeading: `IsUpperText` looks at ASCII letters only. Python's `str.isupper()` looks at every cased character, so "POLICY \u00f6" is not upper-case in the program (the line joins the open document) but is a heading here. Lines with non-ASCII cased letters are not modelled faithfully.
- The knowledge agent (agents/knowledge_agent.py): an hr_policy intent replies with the query handed to it. The semantic search behind it is only modelled as `VectorStore.Search`.
- VectorStore.Search: embeddings and the FAISS index are not modelled. The nearest neighbour's position is a parameter, and `top_k` is fixed at 1.
- VectorStore.Load: reading the file and the FileNotFoundError are not modelled; the text is a parameter. Building the index is only the `indexed` flag. `get_all_policies` just returns the documents.
- Console input and output, emoji, and the wording of prompts and messages. The register prompt is modelled as the list of missing fields.
- temp.py, a scratch script.

=== FILE: attendance_agent.dfy ===
/** agents/attendance_agent.py: the read-only attendance lookup. */
module AttendanceAgent {
  import opened Common
  import opened Database

  /** The dict `get_attendance` returns: the caller's id and date, the stored times. */
  datatype AttendanceView = AttendanceView(employeeId: string, date: string, startTime: Option<string>, endTime: Option<string>)

  /**
   * `get_attendance`: None without a row for (employee, date); otherwise the request echoed
   * with the stored start and end times copied unchanged. The date defaults to today.
   */
  function GetAttendance(db: Db, employeeId: string, date: Option<string>, today: string): (r: Option<AttendanceView>)
    ensures r.None? <==> AttendanceByKey(db.attendance, employeeId, DateOrToday(date, today)).None?
    ensures r.Some? ==> r.value.employeeId == employeeId && r.value.date == DateOrToday(date, today)
    ensures r.Some? ==>
      var row := AttendanceByKey(db.attendance, employeeId, r.value.date).value;
      r.value.startTime == row.startTime && r.value.endTime == row.endTime
    ensures Truthy(date) && r.Some? ==> r.value.date == date.value
  {
    var day := DateOrToday(date, today);
    match AttendanceByKey(db.attendance, employeeId, day)
    case None => None
    case Some(a) => Some(AttendanceView(employeeId, day, a.startTime, a.endTime))
  }
}

=== FILE: common.dfy ===
/** The optional value and the Python truthiness rules every other module relies on. */
module Common {

  /** `None` or a value; stands for a Python value that may be `None`. */
  datatype Option<+T> = None | Some(value: T)

  /** A loosely typed Python dict such as the parsed intent: field name to optional value. */
  type Fields = map<string, Option<string>>

  /** Python's truth test on an optional string: `None` and `""` are both falsy. */
  predicate Truthy(v: Option<string>) {
    v.Some? && v.value != ""
  }

  /** `d.get(k)`: the stored value, or `None` when the key is absent. */
  function Get(d: Fields, k: string): Option<string> {
    if k in d then d[k] else None
  }

  /** `if not date: date = today` as the attendance and report agents write it. */
  function DateOrToday(date: Option<string>, today: string): (d: string)
    ensures Truthy(date) ==> d == date.value
    ensures !Truthy(date) ==> d == today
  {
    if Truthy(date) then date.value else today
  }

  /** `a` keeps some of the elements of `b`, in the order `b` has them. */
  predicate IsSubsequence<T(==)>(a: seq<T>, b: seq<T>) {
    if a == [] then true
    else if b == [] then false
    else if a[0] == b[0] then IsSubsequence(a[1..], b[1..])
    else IsSubsequence(a, b[1..])
  }
}

=== FILE: database.dfy ===
/**
 * The two SQLite tables as immutable values. Rows are kept in rowid order, which is the
 * order in which a SELECT without ORDER BY hands them back.
 */
module Database {
  import opened Common
  import opened Strings

  datatype Employee = Employee(id: nat, name: string, email: string, department: string)

  /** The `employees` table; `lastId` is the AUTOINCREMENT counter, 0 before the first insert. */
  datatype EmployeeTable = EmployeeTable(rows: seq<Employee>, lastId: nat)

  /** One `attendance` row; nothing makes (employee, date) unique. */
  datatype AttendanceRow = AttendanceRow(employeeId: int, date: string, startTime: Option<string>, endTime: Option<string>)

  datatype Db = Db(employees: EmployeeTable, attendance: seq<AttendanceRow>)

  /** The table's constraints: ids positive, at most the counter and rising with rowid; emails UNIQUE. */
  ghost predicate ValidEmployees(t: EmployeeTable) {
    && (forall i :: 0 <= i < |t.rows| ==> 0 < t.rows[i].id <= t.lastId)
    && (forall i, j :: 0 <= i < j < |t.rows| ==> t.rows[i].id < t.rows[j].id)
    && (forall i, j :: 0 <= i < j < |t.rows| ==> t.rows[i].email != t.rows[j].email)
  }

  /** `employee_exists(email)`. */
  predicate EmployeeExists(t: EmployeeTable, email: string) {
    exists e :: e in t.rows && e.email == email
  }

  /**
   * `add_employee`: an INSERT that takes the next AUTOINCREMENT id. The UNIQUE constraint on
   * email makes the INSERT fail (`None`) when the email is already stored.
   */
  function AddEmployee(t: EmployeeTable, name: string, email: string, department: string): (r: Option<(EmployeeTable, nat)>)
    ensures r.None? <==> EmployeeExists(t, email)
    ensures r.Some? ==> r.value.1 > t.lastId && r.value.0.lastId == r.value.1
    ensures r.Some? ==> r.value.0.rows == t.rows + [Employee(r.value.1, name, email, department)]
    ensures r.Some? && ValidEmployees(t) ==> ValidEmployees(r.value.0)
  {
    if EmployeeExists(t, email) then None
    else
      var id := t.lastId + 1;
      Some((EmployeeTable(t.rows + [Employee(id, name, email, department)], id), id))
  }

  /** `get_employee_by_id`: the row with that id, if any. */
  function EmployeeById(rows: seq<Employee>, id: int): (r: Option<Employee>)
    ensures r.Some? ==> r.value in rows && r.value.id == id
    ensures r.None? <==> forall e :: e in rows ==> e.id != id
  {
    if rows == [] then None
    else if rows[0].id == id then Some(rows[0])
    else EmployeeById(rows[1..], id)
  }

  /** In a valid table the row found by id is the only row with that id. */
  lemma EmployeeByIdUnique(t: EmployeeTable, e: Employee)
    requires ValidEmployees(t) && e in t.rows
    ensures EmployeeById(t.rows, e.id) == Some(e)
  {
  }

  /** `get_employee_by_name`: every row with exactly that name, each once, in table order. */
  function EmployeesByName(rows: seq<Employee>, name: string): (r: seq<Employee>)
    ensures forall e :: e in r <==> e in rows && e.name == name
    ensures IsSubsequence(r, rows) && |r| <= |rows|
    ensures forall e :: multiset(r)[e] == if e.name == name then multiset(rows)[e] else 0
  {
    if rows == [] then []
    else
      var rest := EmployeesByName(rows[1..], name);
      assert rows == [rows[0]] + rows[1..];
      if rows[0].name == name then [rows[0]] + rest
      else
        assert rest != [] ==> rest[0] in rest;
        rest
  }

  /** The whitespace SQLite skips around a number: the ASCII space and '\t' through '\r'. */
  predicate IsSqlSpace(c: char) {
    c == ' ' || '\t' <= c <= '\r'
  }

  /** Drops the leading SQLite whitespace and nothing else. */
  function SqlTrimStart(s: string): (r: string)
    ensures |r| <= |s| && r == s[|s| - |r|..]
    ensures forall i :: 0 <= i < |s| - |r| ==> IsSqlSpace(s[i])
    ensures r == [] || !IsSqlSpace(r[0])
  {
    if |s| > 0 && IsSqlSpace(s[0]) then SqlTrimStart(s[1..]) else s
  }

  /** Drops the trailing SQLite whitespace and nothing else. */
  function SqlTrimEnd(s: string): (r: string)
    ensures |r| <= |s| && r == s[..|r|]
    ensures forall i :: |r| <= i < |s| ==> IsSqlSpace(s[i])
    ensures r == [] || !IsSqlSpace(r[|r| - 1])
  {
    if |s| > 0 && IsSqlSpace(s[|s| - 1]) then SqlTrimEnd(s[..|s| - 1]) else s
  }

  /**
   * The integer a TEXT parameter becomes when compared with an INTEGER column (numeric
   * affinity): an optionally signed decimal number between ASCII whitespace.
   */
  function SqlIntValue(key: string): Option<int> {
    ParseDecimal(SqlTrimEnd(SqlTrimStart(key)))
  }

  /** Where leading SQLite whitespace ends at a character `strip()` keeps, both trims agree. */
  lemma {:induction false} TrimStartAgrees(s: string)
    requires SqlTrimStart(s) == [] || !IsSpace(SqlTrimStart(s)[0])
    ensures TrimStart(s) == SqlTrimStart(s)
  {
    if |s| > 0 && IsSqlSpace(s[0]) {
      TrimStartAgrees(s[1..]);
    }
  }

  /** Where trailing SQLite whitespace ends at a character `strip()` keeps, both trims agree. */
  lemma {:induction false} TrimEndAgrees(s: string)
    requires SqlTrimEnd(s) == [] || !IsSpace(SqlTrimEnd(s)[|SqlTrimEnd(s)| - 1])
    ensures TrimEnd(s) == SqlTrimEnd(s)
  {
    if |s| > 0 && IsSqlSpace(s[|s| - 1]) {
      TrimEndAgrees(s[..|s| - 1]);
    }
  }

  /** Text with no SQLite whitespace at either end is read as it stands. */
  lemma SqlTrimmed(s: string)
    requires s == [] || (!IsSqlSpace(s[0]) && !IsSqlSpace(s[|s| - 1]))
    ensures SqlTrimEnd(SqlTrimStart(s)) == s
  {
  }

  /** A number SQLite or `int()` reads neither starts nor ends with whitespace of either kind. */
  lemma ParsedEnds(v: string)
    requires ParseDecimal(v).Some?
    ensures |v| > 0 && !IsSpace(v[0]) && !IsSpace(v[|v| - 1])
  {
    if v[0] == '+' || v[0] == '-' {
      assert IsDigit(v[1..][|v| - 2]);
    } else {
      assert IsDigit(v[0]) && IsDigit(v[|v| - 1]);
    }
  }

  /** Around text whose ends `strip()` keeps, `strip()` removes exactly the SQLite whitespace. */
  lemma TrimAgrees(key: string)
    requires var v := SqlTrimEnd(SqlTrimStart(key)); |v| > 0 && !IsSpace(v[0]) && !IsSpace(v[|v| - 1])
    ensures TrimEnd(TrimStart(key)) == SqlTrimEnd(SqlTrimStart(key))
  {
    var u := SqlTrimStart(key);
    assert u[0] == SqlTrimEnd(u)[0];
    TrimStartAgrees(key);
    TrimEndAgrees(u);
  }

  /** A key SQLite reads as a number is read by `int()` as the same number. */
  lemma SqlKeyIsInt(key: string)
    ensures SqlIntValue(key).Some? ==> IntValue(key) == SqlIntValue(key)
  {
    if SqlIntValue(key).Some? {
      ParsedEnds(SqlTrimEnd(SqlTrimStart(key)));
      TrimAgrees(key);
    }
  }

  /** The decimal form of an id is a key SQLite reads as that id. */
  lemma ShowNatSqlKey(n: nat)
    ensures SqlIntValue(ShowNat(n)) == Some(n)
  {
    var s := ShowNat(n);
    assert IsDigit(s[0]) && IsDigit(s[|s| - 1]);
    SqlTrimmed(s);
    assert s[0] != '+' && s[0] != '-';
    assert ParseDecimal(s) == Some(DigitsValue(s));
    ShowNatValue(n);
  }

  /** A no-break space before the digits: `int()` reads 1, SQLite keeps the text and matches nothing. */
  lemma NoBreakSpaceKey()
    ensures IntValue("\U{A0}1") == Some(1)
    ensures SqlIntValue("\U{A0}1").None?
  {
    var s := "\U{A0}1";
    assert s[1..] == "1";
    assert TrimStart("1") == "1";
    assert TrimStart(s) == "1";
    assert TrimEnd("1") == "1";
    assert DigitsValue("1") == 1 by {
      assert "1"[..0] == [];
    }
    assert SqlTrimStart(s) == s;
    assert SqlTrimEnd(s) == s;
    assert !IsDigit(s[0]) && s[0] != '+' && s[0] != '-';
  }

  /** The SQL text key a caller passes compared with the INTEGER id column (numeric affinity). */
  function EmployeeByKey(t: EmployeeTable, key: string): (r: Option<Employee>)
    ensures r.Some? <==> SqlIntValue(key).Some? && exists e :: e in t.rows && e.id == SqlIntValue(key).value
    ensures r.Some? ==> r.value in t.rows && r.value.id == SqlIntValue(key).value
  {
    match SqlIntValue(key)
    case None => None
    case Some(id) => EmployeeById(t.rows, id)
  }

  predicate MatchesDay(a: AttendanceRow, employeeId: int, date: string) {
    a.employeeId == employeeId && a.date == date
  }

  /** The position of the first attendance row for (employee, date). */
  function AttendanceIndex(rows: seq<AttendanceRow>, employeeId: int, date: string): (r: Option<nat>)
    ensures r.Some? ==> r.value < |rows| && MatchesDay(rows[r.value], employeeId, date)
    ensures r.Some? ==> forall j :: 0 <= j < r.value ==> !MatchesDay(rows[j], employeeId, date)
    ensures r.None? <==> forall j :: 0 <= j < |rows| ==> !MatchesDay(rows[j], employeeId, date)
  {
    if rows == [] then None
    else if MatchesDay(rows[0], employeeId, date) then Some(0)
    else match AttendanceIndex(rows[1..], employeeId, date)
      case None => None
      case Some(k) => Some(k + 1)
  }

  /** Row `k` is the earliest row for (employee, date). */
  predicate IsFirstDayRow(rows: seq<AttendanceRow>, k: int, employeeId: int, date: string) {
    && 0 <= k < |rows| && MatchesDay(rows[k], employeeId, date)
    && forall j :: 0 <= j < k ==> !MatchesDay(rows[j], employeeId, date)
  }

  /** There is at most one earliest row, so the row `fetchone` returns is determined. */
  lemma FirstDayRowUnique(rows: seq<AttendanceRow>, k1: int, k2: int, employeeId: int, date: string)
    requires IsFirstDayRow(rows, k1, employeeId, date) && IsFirstDayRow(rows, k2, employeeId, date)
    ensures k1 == k2
  {
  }

  /** `get_attendance_for_date`: the first matching row (`fetchone`). */
  function AttendanceFor(rows: seq<AttendanceRow>, employeeId: int, date: string): (r: Option<AttendanceRow>)
    ensures r.None? <==> forall j :: 0 <= j < |rows| ==> !MatchesDay(rows[j], employeeId, date)
    ensures r.Some? ==> r.value in rows && MatchesDay(r.value, employeeId, date)
    ensures r.Some? ==> exists k :: IsFirstDayRow(rows, k, employeeId, date) && rows[k] == r.value
  {
    match AttendanceIndex(rows, employeeId, date)
    case None => None
    case Some(k) => Some(rows[k])
  }

  /** The same lookup with the employee id as the text the caller holds. */
  function AttendanceByKey(rows: seq<AttendanceRow>, key: string, date: string): (r: Option<AttendanceRow>)
    ensures r.Some? <==> SqlIntValue(key).Some? && exists j :: 0 <= j < |rows| && MatchesDay(rows[j], SqlIntValue(key).value, date)
    ensures r.Some? ==> r.value in rows && MatchesDay(r.value, SqlIntValue(key).value, date)
    ensures r.Some? ==> exists k :: IsFirstDayRow(rows, k, SqlIntValue(key).value, date) && rows[k] == r.value
  {
    match SqlIntValue(key)
    case None => None
    case Some(id) => AttendanceFor(rows, id, date)
  }

  /** `add_start_time`: always INSERTs a new row, whatever is already stored for that day. */
  function AddStartTime(rows: seq<AttendanceRow>, employeeId: int, date: string, startTime: Option<string>): (r: seq<AttendanceRow>)
    ensures |r| == |rows| + 1 && r[..|rows|] == rows
    ensures r[|rows|] == AttendanceRow(employeeId, date, startTime, None)
  {
    rows + [AttendanceRow(employeeId, date, startTime, None)]
  }

  /** `add_end_time`: an UPDATE of every row for (employee, date). */
  function AddEndTime(rows: seq<AttendanceRow>, employeeId: int, date: string, endTime: Option<string>): (r: seq<AttendanceRow>)
    ensures |r| == |rows|
    ensures forall j :: 0 <= j < |rows| && MatchesDay(rows[j], employeeId, date) ==> r[j] == rows[j].(endTime := endTime)
    ensures forall j :: 0 <= j < |rows| && !MatchesDay(rows[j], employeeId, date) ==> r[j] == rows[j]
  {
    seq(|rows|, j requires 0 <= j < |rows| =>
      if MatchesDay(rows[j], employeeId, date) then rows[j].(endTime := endTime) else rows[j])
  }

  /**
   * A second start for a day that already has a row is stored but never read back: the
   * lookup keeps returning the earlier row.
   */
  lemma {:induction false} SecondStartIsShadowed(rows: seq<AttendanceRow>, employeeId: int, date: string, startTime: Option<string>)
    requires AttendanceFor(rows, employeeId, date).Some?
    ensures AttendanceFor(AddStartTime(rows, employeeId, date, startTime), employeeId, date) == AttendanceFor(rows, employeeId, date)
  {
    var r := AddStartTime(rows, employeeId, date, startTime);
    var k := AttendanceIndex(rows, employeeId, date).value;
    var k' := AttendanceIndex(r, employeeId, date);
    assert forall j :: 0 <= j < |rows| ==> r[j] == rows[j];
    assert k'.Some? && k'.value == k;
  }

  /** A first start for a day is what the lookup then returns. */
  lemma FirstStartIsRead(rows: seq<AttendanceRow>, employeeId: int, date: string, startTime: Option<string>)
    requires AttendanceFor(rows, employeeId, date).None?
    ensures AttendanceFor(AddStartTime(rows, employeeId, date, startTime), employeeId, date)
         == Some(AttendanceRow(employeeId, date, startTime, None))
  {
    var r := AddStartTime(rows, employeeId, date, startTime);
    var k' := AttendanceIndex(r, employeeId, date);
    assert forall j :: 0 <= j < |rows| ==> r[j] == rows[j];
    assert MatchesDay(r[|rows|], employeeId, date);
    assert k'.Some? && k'.value == |rows|;
  }

  /** After an end time is set, the row the lookup returns carries it and nothing else changed. */
  lemma EndTimeIsRead(rows: seq<AttendanceRow>, employeeId: int, date: string, endTime: Option<string>)
    requires AttendanceFor(rows, employeeId, date).Some?
    ensures AttendanceFor(AddEndTime(rows, employeeId, date, endTime), employeeId, date)
         == Some(AttendanceFor(rows, employeeId, date).value.(endTime := endTime))
  {
    var r := AddEndTime(rows, employeeId, date, endTime);
    var k := AttendanceIndex(rows, employeeId, date).value;
    var k' := AttendanceIndex(r, employeeId, date);
    assert MatchesDay(r[k], employeeId, date);
    assert forall j :: 0 <= j < |rows| ==> (MatchesDay(r[j], employeeId, date) <==> MatchesDay(rows[j], employeeId, date));
    assert k'.Some? && k'.value == k;
  }
}

=== FILE: employee_agent.dfy ===
/** agents/employee_agent.py: registration with the email check, and lookup by id or by name. */
module EmployeeAgent {
  import opened Common
  import opened Strings
  import opened Database

  datatype RegisterResult =
    | AlreadyRegistered          // status "exists"
    | Registered(employeeId: nat) // status "success" with the new id

  /**
   * `register_employee`: a known email is refused and nothing is stored; otherwise the
   * employee is appended with the department stripped and upper-cased, under the next id.
   */
  function RegisterEmployee(t: EmployeeTable, name: string, email: string, department: string): (r: (RegisterResult, EmployeeTable))
    ensures r.0.AlreadyRegistered? <==> EmployeeExists(t, email)
    ensures r.0.AlreadyRegistered? ==> r.1 == t
    ensures r.0.Registered? ==> forall e :: e in t.rows ==> e in r.1.rows
    ensures r.0.Registered? ==> |r.1.rows| == |t.rows| + 1
    ensures r.0.Registered? && ValidEmployees(t) ==>
      && (forall e :: e in t.rows ==> e.id != r.0.employeeId)
      && EmployeeById(r.1.rows, r.0.employeeId) == Some(Employee(r.0.employeeId, name, email, Upper(Trim(department))))
    ensures r.0.Registered? ==>
      && r.0.employeeId == t.lastId + 1
      && r.1 == EmployeeTable(t.rows + [Employee(t.lastId + 1, name, email, Upper(Trim(department)))], t.lastId + 1)
    ensures ValidEmployees(t) ==> ValidEmployees(r.1)
  {
    if EmployeeExists(t, email) then (AlreadyRegistered, t)
    else
      var added := AddEmployee(t, name, email, Upper(Trim(department)));
      var (t', id) := added.value;
      assert ValidEmployees(t) ==> EmployeeById(t'.rows, id) == Some(t'.rows[|t.rows|]) by {
        if ValidEmployees(t) {
          EmployeeByIdUnique(t', t'.rows[|t.rows|]);
        }
      }
      (Registered(id), t')
  }

  datatype FindResult =
    | Found(employee: Employee)
    | NotFound
    | MultipleFound(employees: seq<Employee>)
    | NoCriteria                 // status "error": neither id nor name given

  /**
   * `find_employee`: an id that is not None decides alone (the name is ignored); otherwise the
   * name gives not found, the single match, or every match when there are several.
   */
  function FindEmployee(t: EmployeeTable, employeeId: Option<string>, name: Option<string>): (r: FindResult)
    ensures employeeId.Some? ==> (r.Found? || r.NotFound?)
    ensures employeeId.Some? ==> (r.Found? <==> EmployeeByKey(t, employeeId.value).Some?)
    ensures employeeId.Some? && r.Found? ==> r.employee in t.rows && SqlIntValue(employeeId.value) == Some(r.employee.id)
    ensures employeeId.None? && name.Some? ==> !r.NoCriteria?
    ensures employeeId.None? && name.Some? && r.NotFound? ==> forall e :: e in t.rows ==> e.name != name.value
    ensures employeeId.None? && name.Some? && r.Found? ==>
      && r.employee in t.rows && r.employee.name == name.value
      && forall e :: e in t.rows && e.name == name.value ==> e == r.employee
    ensures r.MultipleFound? ==>
      && employeeId.None? && name.Some? && |r.employees| > 1
      && forall e :: e in r.employees <==> e in t.rows && e.name == name.value
    ensures r.NoCriteria? <==> employeeId.None? && name.None?
    ensures employeeId.None? && name.Some? ==> ByMatchCount(r, EmployeesByName(t.rows, name.value))
  {
    if employeeId.Some? then
      match EmployeeByKey(t, employeeId.value)
      case Some(e) => Found(e)
      case None => NotFound
    else if name.Some? then FindByName(t, name.value)
    else NoCriteria
  }

  /** No match is not found, one match is found, several are all returned as listed. */
  predicate ByMatchCount(r: FindResult, m: seq<Employee>) {
    && (r.NotFound? <==> |m| == 0)
    && (r.Found? <==> |m| == 1)
    && (r.Found? ==> r.employee == m[0])
    && (r.MultipleFound? ==> r.employees == m)
  }

  /** What the number of rows with a name says about the table. */
  lemma MatchCountFacts(rows: seq<Employee>, name: string)
    ensures var m := EmployeesByName(rows, name);
      && (|m| == 0 ==> forall e :: e in rows ==> e.name != name)
      && (|m| == 1 ==> m[0] in rows && m[0].name == name && forall e :: e in rows && e.name == name ==> e == m[0])
  {
    var m := EmployeesByName(rows, name);
    if |m| == 1 {
      assert m[0] in m;
      forall e | e in rows && e.name == name
        ensures e == m[0]
      {
        assert e in m;
      }
    }
  }

  /** The by-name half of `find_employee`: the match count picks the outcome. */
  function FindByName(t: EmployeeTable, name: string): (r: FindResult)
    ensures r.NotFound? || r.Found? || r.MultipleFound?
    ensures r.NotFound? ==> forall e :: e in t.rows ==> e.name != name
    ensures r.Found? ==>
      && r.employee in t.rows && r.employee.name == name
      && forall e :: e in t.rows && e.name == name ==> e == r.employee
    ensures r.MultipleFound? ==>
      && |r.employees| > 1
      && forall e :: e in r.employees <==> e in t.rows && e.name == name
    ensures ByMatchCount(r, EmployeesByName(t.rows, name))
  {
    var matches := EmployeesByName(t.rows, name);
    MatchCountFacts(t.rows, name);
    if |matches| == 0 then NotFound
    else if |matches| > 1 then MultipleFound(matches)
    else Found(matches[0])
  }

  /** With an id given, the name makes no difference to the lookup. */
  lemma FindByIdIgnoresName(t: EmployeeTable, employeeId: string, name1: Option<string>, name2: Option<string>)
    ensures FindEmployee(t, Some(employeeId), name1) == FindEmployee(t, Some(employeeId), name2)
  {
  }

  /** A freshly registered employee is found by the decimal form of the id registration returned. */
  lemma RegisteredIsFound(t: EmployeeTable, name: string, email: string, department: string, other: Option<string>)
    requires ValidEmployees(t)
    requires RegisterEmployee(t, name, email, department).0.Registered?
    ensures var (res, t') := RegisterEmployee(t, name, email, department);
      FindEmployee(t', Some(ShowNat(res.employeeId)), other) == Found(Employee(res.employeeId, name, email, Upper(Trim(department))))
  {
    var (res, t') := RegisterEmployee(t, name, email, department);
    ShowNatSqlKey(res.employeeId);
  }

  /** Registering twice with one email stores the employee once; the second attempt is refused. */
  lemma SecondRegistrationRefused(t: EmployeeTable, name: string, email: string, department: string, name2: string, department2: string)
    ensures var t' := RegisterEmployee(t, name, email, department).1;
      RegisterEmployee(t', name2, email, department2) == (AlreadyRegistered, t')
  {
    var (res, t') := RegisterEmployee(t, name, email, department);
    if res.Registered? {
      assert t'.rows[|t.rows|].email == email;
    }
  }
}

=== FILE: entity_normalizer.dfy ===
/** utils/entity_normalizer.py: resolve one employee from loose data, id before name. */
module EntityNormalizer {
  import opened Common
  import opened Strings
  import opened Database
  import opened EmployeeAgent

  datatype Resolution =
    | Resolved(employee: Employee)
    | Ambiguous(candidates: seq<Employee>)
    | IdNotANumber                // "Employee ID must be a number."
    | UnknownId(id: int)          // "No employee found with ID ..."
    | UnknownName(name: string)   // "No employee found with name ..."
    | NoIdentifier                // "Please specify employee name or employee ID."

  /**
   * `normalize_employee`: a truthy `employee_id` decides alone, and must read as an integer
   * before the table is consulted; only without one does a truthy `name` get looked up.
   */
  function NormalizeEmployee(t: EmployeeTable, data: Fields): (r: Resolution)
    ensures Truthy(Get(data, "employee_id")) ==> r.Resolved? || r.IdNotANumber? || r.UnknownId?
    ensures r.IdNotANumber? <==> Truthy(Get(data, "employee_id")) && IntValue(Get(data, "employee_id").value).None?
    ensures r.UnknownId? ==>
      && Truthy(Get(data, "employee_id")) && IntValue(Get(data, "employee_id").value) == Some(r.id)
      && forall e :: e in t.rows ==> e.id != r.id
    ensures r.Resolved? && Truthy(Get(data, "employee_id")) ==>
      r.employee in t.rows && IntValue(Get(data, "employee_id").value) == Some(r.employee.id)
    ensures !Truthy(Get(data, "employee_id")) && Truthy(Get(data, "name")) ==> r.Resolved? || r.Ambiguous? || r.UnknownName?
    ensures r.UnknownName? ==>
      && !Truthy(Get(data, "employee_id")) && Get(data, "name") == Some(r.name)
      && forall e :: e in t.rows ==> e.name != r.name
    ensures r.Resolved? && !Truthy(Get(data, "employee_id")) ==>
      && Truthy(Get(data, "name")) && r.employee in t.rows && r.employee.name == Get(data, "name").value
      && forall e :: e in t.rows && e.name == r.employee.name ==> e == r.employee
    ensures r.Ambiguous? ==>
      && !Truthy(Get(data, "employee_id")) && Truthy(Get(data, "name")) && |r.candidates| > 1
      && forall e :: e in r.candidates <==> e in t.rows && e.name == Get(data, "name").value
    ensures r.NoIdentifier? <==> !Truthy(Get(data, "employee_id")) && !Truthy(Get(data, "name"))
    ensures !Truthy(Get(data, "employee_id")) && Truthy(Get(data, "name")) ==>
      ResolvedByCount(r, EmployeesByName(t.rows, Get(data, "name").value))
  {
    var employeeId := Get(data, "employee_id");
    var name := Get(data, "name");
    if Truthy(employeeId) then
      match IntValue(employeeId.value)
      case None => IdNotANumber
      case Some(id) =>
        match EmployeeById(t.rows, id)
        case None => UnknownId(id)
        case Some(e) => Resolved(e)
    else if Truthy(name) then ResolveByName(t, name.value)
    else NoIdentifier
  }

  /** The by-name half of `normalize_employee`: the match count picks the outcome. */
  function ResolveByName(t: EmployeeTable, name: string): (r: Resolution)
    ensures r.Resolved? || r.Ambiguous? || r.UnknownName?
    ensures r.UnknownName? ==> r.name == name && forall e :: e in t.rows ==> e.name != name
    ensures r.Resolved? ==>
      && r.employee in t.rows && r.employee.name == name
      && forall e :: e in t.rows && e.name == name ==> e == r.employee
    ensures r.Ambiguous? ==> |r.candidates| > 1 && forall e :: e in r.candidates <==> e in t.rows && e.name == name
    ensures ResolvedByCount(r, EmployeesByName(t.rows, name))
  {
    var matches := EmployeesByName(t.rows, name);
    MatchCountFacts(t.rows, name);
    if |matches| == 0 then UnknownName(name)
    else if |matches| == 1 then Resolved(matches[0])
    else Ambiguous(matches)
  }

  /** No match is an unknown name, one match resolves, several are the candidates as listed. */
  predicate ResolvedByCount(r: Resolution, m: seq<Employee>) {
    && (r.UnknownName? <==> |m| == 0)
    && (r.Resolved? <==> |m| == 1)
    && (r.Resolved? ==> r.employee == m[0])
    && (r.Ambiguous? ==> r.candidates == m)
  }

  /** A truthy id takes priority: whatever the name says, the outcome is the same. */
  lemma IdTakesPriority(t: EmployeeTable, data: Fields, name: Option<string>)
    requires Truthy(Get(data, "employee_id"))
    ensures NormalizeEmployee(t, data["name" := name]) == NormalizeEmployee(t, data)
  {
    assert Get(data["name" := name], "employee_id") == Get(data, "employee_id");
  }

  /** By name, the normalizer and `find_employee` reach the same verdict. */
  lemma AgreesWithFindByName(t: EmployeeTable, data: Fields)
    requires !Truthy(Get(data, "employee_id")) && Truthy(Get(data, "name"))
    ensures var r := NormalizeEmployee(t, data);
      var f := FindEmployee(t, None, Get(data, "name"));
      && (r.Resolved? <==> f.Found?)
      && (r.Resolved? ==> r.employee == f.employee)
      && (r.Ambiguous? <==> f.MultipleFound?)
      && (r.Ambiguous? ==> r.candidates == f.employees)
      && (r.UnknownName? <==> f.NotFound?)
  {
  }

  /** By an id SQLite reads as a number, the normalizer and `find_employee` reach the same verdict. */
  lemma AgreesWithFindById(t: EmployeeTable, data: Fields, name: Option<string>)
    requires Truthy(Get(data, "employee_id")) && SqlIntValue(Get(data, "employee_id").value).Some?
    ensures var r := NormalizeEmployee(t, data);
      var f := FindEmployee(t, Get(data, "employee_id"), name);
      && (r.Resolved? <==> f.Found?)
      && (r.Resolved? ==> r.employee == f.employee)
      && (r.UnknownId? <==> f.NotFound?)
  {
    SqlKeyIsInt(Get(data, "employee_id").value);
  }

  /**
   * The two disagree on an id padded with a no-break space: `int()` strips it and the
   * normalizer resolves the employee, while SQLite keeps the text and finds no row.
   */
  lemma PaddedIdDisagreement()
    ensures var ravi := Employee(1, "Ravi", "ravi@x.com", "IT");
      var t := EmployeeTable([ravi], 1);
      var data: Fields := map["employee_id" := Some("\U{A0}1")];
      && NormalizeEmployee(t, data) == Resolved(ravi)
      && FindEmployee(t, Some("\U{A0}1"), None) == NotFound
  {
    var ravi := Employee(1, "Ravi", "ravi@x.com", "IT");
    var t := EmployeeTable([ravi], 1);
    var key := "\U{A0}1";
    var data: Fields := map["employee_id" := Some(key)];
    NoBreakSpaceKey();
    assert Truthy(Get(data, "employee_id")) && Get(data, "employee_id").value == key;
    assert EmployeeById(t.rows, 1) == Some(ravi);
    assert EmployeeByKey(t, key) == None;
  }

  /**
   * The two disagree on an empty id string: `find_employee` tests `is not None` and looks the
   * empty id up, while the normalizer treats it as absent and resolves the name.
   */
  lemma EmptyIdDisagreement()
    ensures var ravi := Employee(1, "Ravi", "ravi@x.com", "IT");
      var t := EmployeeTable([ravi], 1);
      var data: Fields := map["employee_id" := Some(""), "name" := Some("Ravi")];
      && NormalizeEmployee(t, data) == Resolved(ravi)
      && FindEmployee(t, Some(""), Some("Ravi")) == NotFound
  {
    var ravi := Employee(1, "Ravi", "ravi@x.com", "IT");
    var t := EmployeeTable([ravi], 1);
    assert EmployeesByName(t.rows, "Ravi") == [ravi];
    assert Trim("") == "";
  }
}

=== FILE: intent_parser.dfy ===
/** utils/intent_parser.py: keyword hints, JSON extraction, and the clean-up of the model's answer. */
module IntentParser {
  import opened Common
  import opened Strings

  /** The keys of INTENT_SCHEMA, the single source of truth for a parsed intent. */
  const SchemaKeys: seq<string> :=
    ["intent", "employee_id", "name", "email", "department", "date", "start_time", "end_time", "query"]

  /** INTENT_SCHEMA: every key present, every value None. */
  function Schema(): (d: Fields)
    ensures forall k :: k in d <==> k in SchemaKeys
    ensures forall k :: k in d ==> d[k] == None
  {
    map k | k in SchemaKeys :: None
  }

  /** `_fallback_intent`: the schema with intent "unknown". */
  function FallbackIntent(): (d: Fields)
    ensures forall k :: k in d <==> k in SchemaKeys
    ensures d["intent"] == Some("unknown")
    ensures forall k :: k in d && k != "intent" ==> d[k] == None
  {
    Schema()["intent" := Some("unknown")]
  }

  /** Some '{' comes before some '}'. */
  predicate HasBracePair(text: string) {
    exists i, j :: 0 <= i < j < |text| && text[i] == '{' && text[j] == '}'
  }

  /**
   * `_extract_json`: the slice from the first '{' to the last '}' inclusive; None stands for
   * the ValueError when either is missing. When the last '}' comes before the first '{',
   * Python's slice is empty.
   */
  function ExtractJson(text: string): (r: Option<string>)
    ensures r.None? <==> '{' !in text || '}' !in text
    ensures r.Some? ==> (r.value == "" <==> !HasBracePair(text))
    ensures r.Some? && r.value != "" ==>
      && r.value[0] == '{' && r.value[|r.value| - 1] == '}'
      && exists i: nat :: OccursAt(text, r.value, i) && '{' !in text[..i] && '}' !in text[i + |r.value|..]
  {
    match (Find(text, '{'), RFind(text, '}'))
    case (Some(start), Some(end)) =>
      if end < start then
        assert !HasBracePair(text) by {
          forall i, j | 0 <= i < j < |text|
            ensures !(text[i] == '{' && text[j] == '}')
          {
            if i < start { assert text[..start][i] == text[i]; }
            else { assert text[end + 1..][j - end - 1] == text[j]; }
          }
        }
        Some("")
      else
        var clean := text[start..end + 1];
        assert OccursAt(text, clean, start);
        assert text[start] == '{' && text[end] == '}';
        Some(clean)
    case _ => None
  }

  const Greetings: seq<string> := ["hi", "hello", "hey", "hii"]
  const HelpKeys: seq<string> := ["service", "help", "what can you do"]
  const RegisterKeys: seq<string> := ["register", "employee"]
  const WorkingHoursKeys: seq<string> :=
    ["start work", "worked on", "will work", "working hours", "set working", "assign working", "work from", "work at"]
  const AttendanceKeys: seq<string> := ["attendance record", "attendance info", "working hour of", "work hours of"]
  const ReportKeys: seq<string> := ["daily report", "work report", "generate report", "show report"]
  const PolicyKeys: seq<string> := ["policy"]

  /** The text the hint checks look at: lower-cased, then stripped. */
  function HintText(userInput: string): string {
    Trim(Lower(userInput))
  }

  /**
   * `_rule_based_intent_hint`: the first row of the priority table that matches the input,
   * lower-cased and stripped.
   */
  function Hint(userInput: string): (r: Option<string>)
    ensures r == FirstMatch(HintRules, HintText(userInput))
  {
    HintIsFirstMatch(HintText(userInput));
    HintOf(HintText(userInput))
  }

  /** The keyword checks of `_rule_based_intent_hint` on the prepared text, first hit wins. */
  function HintOf(text: string): (r: Option<string>)
    ensures r.Some? ==> r.value in ["greeting", "help", "register_employee", "assign_working_hours",
                                    "attendance_info", "daily_report", "hr_policy"]
  {
    if text in Greetings then Some("greeting")
    else if ContainsAny(text, HelpKeys) then Some("help")
    else if Contains(text, "register") && Contains(text, "employee") then Some("register_employee")
    else if ContainsAny(text, WorkingHoursKeys) then Some("assign_working_hours")
    else if ContainsAny(text, AttendanceKeys) then Some("attendance_info")
    else if ContainsAny(text, ReportKeys) then Some("daily_report")
    else if Contains(text, "policy") then Some("hr_policy")
    else None
  }

  /** One row of the hint table: how the text must match, and the intent it suggests. */
  datatype Rule =
    | Exactly(words: seq<string>, intent: string)   // the whole text is one of the words
    | AnyOf(keys: seq<string>, intent: string)      // some key occurs in the text
    | AllOf(keys: seq<string>, intent: string)      // every key occurs in the text

  predicate RuleMatches(rule: Rule, text: string) {
    match rule
    case Exactly(words, _) => text in words
    case AnyOf(keys, _) => ContainsAny(text, keys)
    case AllOf(keys, _) => forall j :: 0 <= j < |keys| ==> Contains(text, keys[j])
  }

  /** The hint checks as data, in priority order. */
  const HintRules: seq<Rule> := [
    Exactly(Greetings, "greeting"),
    AnyOf(HelpKeys, "help"),
    AllOf(RegisterKeys, "register_employee"),
    AnyOf(WorkingHoursKeys, "assign_working_hours"),
    AnyOf(AttendanceKeys, "attendance_info"),
    AnyOf(ReportKeys, "daily_report"),
    AnyOf(PolicyKeys, "hr_policy")
  ]

  /** The intent of the first rule that matches, if any. */
  function FirstMatch(rules: seq<Rule>, text: string): (r: Option<string>)
    ensures r.None? <==> forall k :: 0 <= k < |rules| ==> !RuleMatches(rules[k], text)
    ensures r.Some? ==>
      exists k :: (0 <= k < |rules| && RuleMatches(rules[k], text) && rules[k].intent == r.value &&
                   forall k' :: 0 <= k' < k ==> !RuleMatches(rules[k'], text))
  {
    if rules == [] then None
    else if RuleMatches(rules[0], text) then Some(rules[0].intent)
    else
      var r := FirstMatch(rules[1..], text);
      assert forall k :: 1 <= k < |rules| ==> rules[k] == rules[1..][k - 1];
      r
  }

  /** The hint is the first matching row of the priority table: earlier groups win. */
  lemma HintIsFirstMatch(text: string)
    ensures HintOf(text) == FirstMatch(HintRules, text)
  {
    var rs := HintRules;
    assert RuleMatches(rs[0], text) <==> text in Greetings;
    assert RuleMatches(rs[1], text) <==> ContainsAny(text, HelpKeys);
    assert RuleMatches(rs[2], text) <==> Contains(text, "register") && Contains(text, "employee") by {
      assert RegisterKeys[0] == "register" && RegisterKeys[1] == "employee";
    }
    assert RuleMatches(rs[3], text) <==> ContainsAny(text, WorkingHoursKeys);
    assert RuleMatches(rs[4], text) <==> ContainsAny(text, AttendanceKeys);
    assert RuleMatches(rs[5], text) <==> ContainsAny(text, ReportKeys);
    assert RuleMatches(rs[6], text) <==> Contains(text, "policy") by {
      assert PolicyKeys[0] == "policy";
    }
    assert FirstMatch(rs[6..], text) == (if RuleMatches(rs[6], text) then Some("hr_policy") else None) by {
      assert rs[6..][0] == rs[6] && rs[6..][1..] == [];
    }
    assert FirstMatch(rs[5..], text) == (if RuleMatches(rs[5], text) then Some("daily_report") else FirstMatch(rs[6..], text)) by {
      assert rs[5..][0] == rs[5] && rs[5..][1..] == rs[6..];
    }
    assert FirstMatch(rs[4..], text) == (if RuleMatches(rs[4], text) then Some("attendance_info") else FirstMatch(rs[5..], text)) by {
      assert rs[4..][0] == rs[4] && rs[4..][1..] == rs[5..];
    }
    assert FirstMatch(rs[3..], text) == (if RuleMatches(rs[3], text) then Some("assign_working_hours") else FirstMatch(rs[4..], text)) by {
      assert rs[3..][0] == rs[3] && rs[3..][1..] == rs[4..];
    }
    assert FirstMatch(rs[2..], text) == (if RuleMatches(rs[2], text) then Some("register_employee") else FirstMatch(rs[3..], text)) by {
      assert rs[2..][0] == rs[2] && rs[2..][1..] == rs[3..];
    }
    assert FirstMatch(rs[1..], text) == (if RuleMatches(rs[1], text) then Some("help") else FirstMatch(rs[2..], text)) by {
      assert rs[1..][0] == rs[1] && rs[1..][1..] == rs[2..];
    }
  }

  /** "greeting" only for the exact words, after lower-casing and stripping. */
  lemma GreetingOnlyExact(text: string)
    ensures HintOf(text) == Some("greeting") <==> text in Greetings
  {
  }

  /** The register hint needs both words. */
  lemma RegisterNeedsBoth(text: string)
    ensures HintOf(text) == Some("register_employee") ==> Contains(text, "register") && Contains(text, "employee")
  {
  }

  /** Without any keyword match there is no hint. */
  lemma NoKeywordNoHint(text: string)
    ensures HintOf(text).None? <==> forall k :: 0 <= k < |HintRules| ==> !RuleMatches(HintRules[k], text)
  {
    HintIsFirstMatch(text);
  }

  /** What the model's reply yields through `_extract_json` and `json.loads`; None for any exception. */
  function LlmFields(reply: Option<string>, decode: string -> Option<Fields>): Option<Fields> {
    match reply
    case None => None
    case Some(raw) =>
      match ExtractJson(raw)
      case None => None
      case Some(clean) => decode(clean)
  }

  /** `{**INTENT_SCHEMA, **parsed}`: every schema key, the parsed value winning. */
  function MergeSchema(parsed: Fields): (m: Fields)
    ensures forall k :: k in m <==> k in SchemaKeys || k in parsed
    ensures forall k :: k in m ==> m[k] == Get(parsed, k)
  {
    Schema() + parsed
  }

  /**
   * The clean-up `parse_intent` applies to the model's fields: schema merge, "today" replaced
   * by the date, a non-None hint overriding the intent, and the raw input as a missing
   * policy query.
   */
  function PostProcess(userInput: string, today: string, hint: Option<string>, p: Fields): (r: Fields)
    ensures forall k :: k in r <==> k in SchemaKeys || k in p
    ensures hint.Some? ==> r["intent"] == hint
    ensures hint.None? ==> r["intent"] == Get(p, "intent")
    ensures Get(p, "date") == Some("today") ==> r["date"] == Some(today)
    ensures Get(p, "date") != Some("today") ==> r["date"] == Get(p, "date")
    ensures r["intent"] == Some("hr_policy") && !Truthy(Get(p, "query")) ==> r["query"] == Some(userInput)
    ensures !(r["intent"] == Some("hr_policy") && !Truthy(Get(p, "query"))) ==> r["query"] == Get(p, "query")
    ensures forall k :: k in r && k != "intent" && k != "date" && k != "query" ==> r[k] == Get(p, k)
  {
    var merged := MergeSchema(p);
    var dated := if merged["date"] == Some("today") then merged["date" := Some(today)] else merged;
    var hinted := if hint.Some? then dated["intent" := hint] else dated;
    if hinted["intent"] == Some("hr_policy") && !Truthy(Get(hinted, "query"))
    then hinted["query" := Some(userInput)]
    else hinted
  }

  /**
   * `parse_intent`. The model call is the `reply` parameter (None when it raised) and
   * `json.loads` is `decode` (None when it raised); `today` is the clock's date. Any failure
   * on the way gives the fallback; otherwise every schema key is present.
   */
  function ParseIntent(userInput: string, today: string, reply: Option<string>, decode: string -> Option<Fields>): (r: Fields)
    ensures forall k :: k in SchemaKeys ==> k in r
    ensures LlmFields(reply, decode).None? ==> r == FallbackIntent()
    ensures LlmFields(reply, decode).Some? ==> r == PostProcess(userInput, today, Hint(userInput), LlmFields(reply, decode).value)
  {
    match LlmFields(reply, decode)
    case None => FallbackIntent()
    case Some(parsed) => PostProcess(userInput, today, Hint(userInput), parsed)
  }
}

=== FILE: orchestrator.dfy ===
/**
 * orchestrator.py: the conversation state and the step functions that start, continue and
 * finish the multi-step flows. Every step takes the state and the store and returns the
 * reply, the next state and the store.
 *
 * Neither orchestrator.py nor the loop in main.py catches exceptions, so a handler that
 * raises ends the whole program. That happens for every `start_work` and `end_work` flow
 * that reaches its handler, because the attendance agent has no such methods, and for a
 * daily report whose stored time is not "%H:%M". Here the attendance calls are stub replies
 * and the bad time is a `BadTimeFormat` report, so no step ends the session.
 */
module Orchestrator {
  import opened Common
  import opened Strings
  import opened Database
  import opened EmployeeAgent
  import opened ReportAgent
  import opened AttendanceAgent

  /** The intents that open a multi-step flow. */
  datatype Flow = RegisterFlow | StartWorkFlow | EndWorkFlow | DailyReportFlow | AttendanceSummaryFlow

  /** The intent string the parser and the state use for a flow. */
  function IntentName(f: Flow): string {
    match f
    case RegisterFlow => "register_employee"
    case StartWorkFlow => "start_work"
    case EndWorkFlow => "end_work"
    case DailyReportFlow => "daily_report"
    case AttendanceSummaryFlow => "check_attendance_summary"
  }

  /** The flow an intent string opens, if any. */
  function FlowNamed(name: string): (r: Option<Flow>)
    ensures r.Some? ==> IntentName(r.value) == name
    ensures r.None? ==> forall f: Flow :: IntentName(f) != name
  {
    if name == "register_employee" then Some(RegisterFlow)
    else if name == "start_work" then Some(StartWorkFlow)
    else if name == "end_work" then Some(EndWorkFlow)
    else if name == "daily_report" then Some(DailyReportFlow)
    else if name == "check_attendance_summary" then Some(AttendanceSummaryFlow)
    else None
  }

  lemma FlowNamedIntentName(f: Flow)
    ensures FlowNamed(IntentName(f)) == Some(f)
  {
  }

  /** `pending_data`: the values collected so far for the active flow. */
  type PendingData = map<string, string>

  /** `Orchestrator.state`. */
  datatype SessionState = SessionState(currentIntent: Option<Flow>, pendingData: PendingData, expectedField: Option<string>)

  /** The state of a new orchestrator, and the one `reset_state` installs. */
  function Idle(): SessionState {
    SessionState(None, map[], None)
  }

  /** `has_active_state`. */
  predicate HasActiveState(s: SessionState) {
    s.currentIntent.Some?
  }

  /** `pending_data.get(f)` is truthy. */
  predicate Filled(pd: PendingData, f: string) {
    f in pd && pd[f] != ""
  }

  /**
   * `pending_data.get(k)`. Unlike `Common.Get` on parsed fields, whose values may themselves
   * be None, pending data only holds strings, so here None means only that the key is absent.
   */
  function PendingGet(pd: PendingData, k: string): Option<string> {
    if k in pd then Some(pd[k]) else None
  }


  predicate Distinct(s: seq<string>) {
    forall i, j :: 0 <= i < j < |s| ==> s[i] != s[j]
  }

  /** The fields a registration needs, in the order the prompt lists them. */
  const RegisterFields: seq<string> := ["name", "email", "department"]

  /**
   * `missing_fields`: the fields of `fields` not yet filled, in their declared order.
   */
  function MissingFields(pd: PendingData, fields: seq<string>): (r: seq<string>)
    ensures IsSubsequence(r, fields)
    ensures forall f :: f in r <==> f in fields && !Filled(pd, f)
    ensures Distinct(fields) ==> Distinct(r)
  {
    if fields == [] then []
    else
      var rest := MissingFields(pd, fields[1..]);
      if Filled(pd, fields[0]) then
        assert rest == [] || rest[0] != fields[0];
        rest
      else
        assert Distinct(fields) ==> fields[0] !in fields[1..];
        [fields[0]] + rest
  }

  /**
   * `values` in `handle_followup`: the comma-separated pieces of `input`, each stripped,
   * empty ones dropped.
   */
  function SplitValues(input: string): (r: seq<string>)
    ensures forall k :: 0 <= k < |r| ==> r[k] != "" && IsTrimmed(r[k])
    ensures IsSubsequence(r, TrimEach(Split(input, ',')))
    ensures forall v :: v in r <==> v in TrimEach(Split(input, ',')) && v != ""
  {
    var trimmed := TrimEach(Split(input, ','));
    NonEmptyTrimmed(trimmed);
    NonEmpty(trimmed)
  }

  /** A value typed twice is kept twice: only empty pieces are dropped. */
  lemma SplitValuesCounts(input: string)
    ensures multiset(SplitValues(input)) == multiset(TrimEach(Split(input, ',')))["" := 0]
  {
    NonEmptyCounts(TrimEach(Split(input, ',')));
  }

  /** Non-empty stripped values without commas, typed comma-separated, are read back as typed. */
  lemma SplitValuesJoin(values: seq<string>)
    requires forall k :: 0 <= k < |values| ==> values[k] != "" && IsTrimmed(values[k]) && ',' !in values[k]
    ensures SplitValues(Join(values, ",")) == values
  {
    if values == [] {
      assert Split("", ',') == [""];
      TrimEachOfTrimmed([""]);
    } else {
      SplitJoin(values, ',');
      assert Split(Join(values, ","), ',') == values;
      TrimEachOfTrimmed(values);
      NonEmptyOfClean(values);
    }
  }

  /**
   * The loop of `handle_followup` for a registration, after its first `n` rounds: the i-th
   * value has gone to the i-th missing field.
   */
  function AssignFirst(pd: PendingData, missing: seq<string>, values: seq<string>, n: nat): (r: PendingData)
    requires Distinct(missing) && n <= |missing| && n <= |values|
    ensures forall k :: k in r <==> k in pd || k in missing[..n]
    ensures forall i :: 0 <= i < n ==> r[missing[i]] == values[i]
    ensures forall k :: k in pd && k !in missing[..n] ==> r[k] == pd[k]
  {
    if n == 0 then pd
    else
      var prev := AssignFirst(pd, missing, values, n - 1);
      assert missing[..n] == missing[..n - 1] + [missing[n - 1]];
      prev[missing[n - 1] := values[n - 1]]
  }

  /** The whole loop: values beyond the missing fields are dropped. */
  function Assign(pd: PendingData, missing: seq<string>, values: seq<string>): (r: PendingData)
    requires Distinct(missing)
    ensures var n := if |missing| < |values| then |missing| else |values|;
      && (forall k :: k in r <==> k in pd || k in missing[..n])
      && (forall i :: 0 <= i < n ==> r[missing[i]] == values[i])
      && (forall k :: k in pd && k !in missing[..n] ==> r[k] == pd[k])
  {
    AssignFirst(pd, missing, values, if |missing| < |values| then |missing| else |values|)
  }

  /** The values a registration follow-up stores. */
  function AssignValues(pd: PendingData, input: string): (r: PendingData)
    ensures var missing, values := MissingFields(pd, RegisterFields), SplitValues(input);
      var n := if |missing| < |values| then |missing| else |values|;
      && (forall k :: k in r <==> k in pd || k in missing[..n])
      && (forall i :: 0 <= i < n ==> r[missing[i]] == values[i])
      && (forall k :: k in pd && k !in missing[..n] ==> r[k] == pd[k])
  {
    Assign(pd, MissingFields(pd, RegisterFields), SplitValues(input))
  }

  /** What a step hands back to the caller instead of the program's strings and dicts. */
  datatype Reply =
    | GreetingText
    | HelpText
    | CannotHandle
    | SomethingWentWrong
    | AskRegisterDetails(missing: seq<string>)
    | AskEmployeeId
    | Registration(result: RegisterResult)
    | EmployeeLookup(found: FindResult)
    | StartWorkRequested(employeeId: string, date: Option<string>, startTime: Option<string>)
    | EndWorkRequested(employeeId: string, date: Option<string>, endTime: Option<string>)
    | DailyReport(report: ReportResult)
    | AttendanceSummary(attendance: Option<AttendanceView>, summary: ReportResult)
    | PolicyQuery(query: Option<string>)

  datatype Step = Step(reply: Reply, state: SessionState, db: Db)

  /**
   * `_continue_register_employee`: while a field is missing, ask for all missing fields and
   * expect the first; once all three are there, register and reset whatever the outcome.
   */
  function ContinueRegister(s: SessionState, db: Db): (r: Step)
    ensures var pd := s.pendingData;
      var missing := MissingFields(pd, RegisterFields);
      && (r.state == Idle() <==> Filled(pd, "name") && Filled(pd, "email") && Filled(pd, "department"))
      && (missing != [] ==> r == Step(AskRegisterDetails(missing), s.(expectedField := Some(missing[0])), db))
      && (missing == [] ==>
            && r.reply.Registration?
            && (r.reply.result, r.db.employees) == RegisterEmployee(db.employees, pd["name"], pd["email"], pd["department"])
            && r.db.attendance == db.attendance)
  {
    var pd := s.pendingData;
    var missing := MissingFields(pd, RegisterFields);
    assert "name" in RegisterFields && "email" in RegisterFields && "department" in RegisterFields;
    if missing != [] then
      assert missing[0] in missing;
      assert missing[0] == "name" || missing[0] == "email" || missing[0] == "department";
      Step(AskRegisterDetails(missing), s.(expectedField := Some(missing[0])), db)
    else
      var (result, employees) := RegisterEmployee(db.employees, pd["name"], pd["email"], pd["department"]);
      Step(Registration(result), Idle(), db.(employees := employees))
  }

  /**
   * `_continue_start_work`, `_continue_end_work`, `_continue_daily_report` and
   * `_continue_attendance_summary`: without a truthy `employee_id`, ask for it; otherwise
   * call the handler with the collected values and reset. `start_work` and `end_work` do
   * not exist on the attendance agent, so their replies only record the call.
   */
  function ContinueEmployeeFlow(s: SessionState, db: Db, today: string, f: Flow): (r: Step)
    requires f != RegisterFlow
    ensures var pd := s.pendingData;
      && (!Filled(pd, "employee_id") ==> r == Step(AskEmployeeId, s.(expectedField := Some("employee_id")), db))
      && (Filled(pd, "employee_id") ==> r.state == Idle() && r.db == db)
      && (Filled(pd, "employee_id") ==>
            var id := pd["employee_id"];
            var date := PendingGet(pd, "date");
            && (f == StartWorkFlow ==> r.reply == StartWorkRequested(id, date, PendingGet(pd, "start_time")))
            && (f == EndWorkFlow ==> r.reply == EndWorkRequested(id, date, PendingGet(pd, "end_time")))
            && (f == DailyReportFlow ==> r.reply == DailyReport(GenerateDailyReport(db, id, date, today)))
            && (f == AttendanceSummaryFlow ==>
                  r.reply == AttendanceSummary(GetAttendance(db, id, date, today), GenerateDailyReport(db, id, date, today))))
  {
    var pd := s.pendingData;
    if !Filled(pd, "employee_id") then
      Step(AskEmployeeId, s.(expectedField := Some("employee_id")), db)
    else
      var id := pd["employee_id"];
      var date := PendingGet(pd, "date");
      var reply := match f
        case StartWorkFlow => StartWorkRequested(id, date, PendingGet(pd, "start_time"))
        case EndWorkFlow => EndWorkRequested(id, date, PendingGet(pd, "end_time"))
        case DailyReportFlow => DailyReport(GenerateDailyReport(db, id, date, today))
        case AttendanceSummaryFlow => AttendanceSummary(GetAttendance(db, id, date, today), GenerateDailyReport(db, id, date, today));
      Step(reply, Idle(), db)
  }

  /** The completion check of the active flow. */
  function Continue(s: SessionState, db: Db, today: string): Step {
    match s.currentIntent
    case None => Step(SomethingWentWrong, s, db)
    case Some(RegisterFlow) => ContinueRegister(s, db)
    case Some(f) => ContinueEmployeeFlow(s, db, today, f)
  }

  /**
   * `handle_followup`: a registration takes the comma-separated values for its missing
   * fields; the other flows ignore the input and only re-run their completion check.
   */
  function HandleFollowup(s: SessionState, db: Db, input: string, today: string): (r: Step)
    ensures s.currentIntent.None? ==> r == Step(SomethingWentWrong, s, db)
    ensures s.currentIntent == Some(RegisterFlow) ==>
      r == ContinueRegister(s.(pendingData := AssignValues(s.pendingData, input)), db)
    ensures s.currentIntent.Some? && s.currentIntent != Some(RegisterFlow) ==>
      r == ContinueEmployeeFlow(s, db, today, s.currentIntent.value)
  {
    if s.currentIntent == Some(RegisterFlow) then
      Continue(s.(pendingData := AssignValues(s.pendingData, input)), db, today)
    else
      Continue(s, db, today)
  }

  /** `{k: v for k, v in intent_data.items() if v}`. */
  function TruthyEntries(data: Fields): (r: PendingData)
    ensures forall k :: k in data && Truthy(data[k]) ==> k in r
    ensures forall k :: k in r ==> k in data && Truthy(data[k]) && r[k] == data[k].value
  {
    map k | k in data && Truthy(data[k]) :: data[k].value
  }

  /** A stateful intent sets the current intent and merges the truthy fields into `pending_data`. */
  function Seed(s: SessionState, f: Flow, data: Fields): (r: SessionState)
    ensures r.currentIntent == Some(f) && r.expectedField == s.expectedField
    ensures forall k :: k in r.pendingData <==> k in s.pendingData || (k in data && Truthy(data[k]))
    ensures forall k :: k in data && Truthy(data[k]) ==> r.pendingData[k] == data[k].value
    ensures forall k :: k in s.pendingData && !(k in data && Truthy(data[k])) ==> r.pendingData[k] == s.pendingData[k]
  {
    s.(currentIntent := Some(f), pendingData := s.pendingData + TruthyEntries(data))
  }

  /**
   * `handle_intent`: greeting, help, find_employee and hr_policy answer without touching the
   * state; the stateful intents seed the state and run their completion check; anything
   * else is refused.
   */
  function HandleIntent(s: SessionState, db: Db, data: Fields, today: string): (r: Step)
    ensures var intent := Get(data, "intent");
      && (intent == Some("greeting") ==> r.reply == GreetingText)
      && (intent == Some("help") ==> r.reply == HelpText)
      && (intent == Some("find_employee") ==>
            r.reply == EmployeeLookup(FindEmployee(db.employees, Get(data, "employee_id"), Get(data, "name"))))
      && (intent == Some("hr_policy") ==> r.reply == PolicyQuery(Get(data, "query")))
      && (intent.Some? && FlowNamed(intent.value).Some? ==>
            r == Continue(Seed(s, FlowNamed(intent.value).value, data), db, today))
      && (intent.None? || FlowNamed(intent.value).None? ==> r.state == s && r.db == db)
      && (intent.None? || (FlowNamed(intent.value).None? && intent.value !in {"greeting", "help", "find_employee", "hr_policy"}) ==>
            r.reply == CannotHandle)
  {
    var intent := Get(data, "intent");
    if intent == Some("greeting") then Step(GreetingText, s, db)
    else if intent == Some("help") then Step(HelpText, s, db)
    else if intent == Some("find_employee") then
      Step(EmployeeLookup(FindEmployee(db.employees, Get(data, "employee_id"), Get(data, "name"))), s, db)
    else if intent == Some("hr_policy") then Step(PolicyQuery(Get(data, "query")), s, db)
    else if intent.Some? && FlowNamed(intent.value).Some? then
      var f := FlowNamed(intent.value).value;
      Continue(Seed(s, f, data), db, today)
    else Step(CannotHandle, s, db)
  }

  /**
   * What every state reached from `Idle()` satisfies: an intent is active exactly when a field
   * is expected, an idle state holds no data, stored values are non-empty, the active intent
   * is recorded under "intent", and the expected field is the one the prompt asked for.
   */
  ghost predicate Inv(s: SessionState) {
    && (s.currentIntent.None? <==> s.expectedField.None?)
    && (s.currentIntent.None? ==> s.pendingData == map[])
    && Seeded(s)
    && (s.currentIntent == Some(RegisterFlow) ==>
          var missing := MissingFields(s.pendingData, RegisterFields);
          missing != [] && s.expectedField == Some(missing[0]))
    && (s.currentIntent.Some? && s.currentIntent != Some(RegisterFlow) ==>
          !Filled(s.pendingData, "employee_id") && s.expectedField == Some("employee_id"))
  }

  /** Stored values are non-empty and an active intent is recorded under "intent". */
  ghost predicate Seeded(s: SessionState) {
    && (forall k :: k in s.pendingData ==> s.pendingData[k] != "")
    && (s.currentIntent.Some? ==> PendingGet(s.pendingData, "intent") == Some(IntentName(s.currentIntent.value)))
  }

  lemma IdleInv()
    ensures Inv(Idle()) && !HasActiveState(Idle())
  {
  }

  /** A completion check on a seeded state leaves a state satisfying `Inv`. */
  lemma ContinueInv(s: SessionState, db: Db, today: string)
    requires s.currentIntent.Some? && Seeded(s)
    ensures Inv(Continue(s, db, today).state)
  {
    var r := Continue(s, db, today);
    if s.currentIntent == Some(RegisterFlow) {
      var missing := MissingFields(s.pendingData, RegisterFields);
      if missing != [] {
        assert r.state == s.(expectedField := Some(missing[0]));
      } else {
        assert r.state == Idle();
      }
    } else {
      if Filled(s.pendingData, "employee_id") {
        assert r.state == Idle();
      } else {
        assert r.state == s.(expectedField := Some("employee_id"));
      }
    }
  }

  /** `handle_intent` keeps `Inv`: afterwards an intent is active exactly when a field is expected. */
  lemma HandleIntentInv(s: SessionState, db: Db, data: Fields, today: string)
    requires Inv(s)
    ensures Inv(HandleIntent(s, db, data, today).state)
  {
    var intent := Get(data, "intent");
    if intent.Some? && FlowNamed(intent.value).Some? {
      var f := FlowNamed(intent.value).value;
      var s' := Seed(s, f, data);
      assert "intent" in data && Truthy(data["intent"]);
      assert PendingGet(s'.pendingData, "intent") == Some(IntentName(f));
      ContinueInv(s', db, today);
    }
  }

  /** Assigning non-empty values to fields other than "intent" keeps the data seeded. */
  lemma AssignKeepsSeeded(pd: PendingData, missing: seq<string>, values: seq<string>)
    requires Distinct(missing) && "intent" !in missing
    requires forall k :: k in pd ==> pd[k] != ""
    requires forall i :: 0 <= i < |values| ==> values[i] != ""
    ensures var r := Assign(pd, missing, values);
      (forall k :: k in r ==> r[k] != "") && PendingGet(r, "intent") == PendingGet(pd, "intent")
  {
    var r := Assign(pd, missing, values);
    var n := if |missing| < |values| then |missing| else |values|;
    forall k | k in r
      ensures r[k] != ""
    {
      if k in missing[..n] {
        var i :| 0 <= i < n && missing[..n][i] == k;
        assert r[missing[i]] == values[i];
      }
    }
  }

  /** Values stored by a registration follow-up are non-empty and never replace "intent". */
  lemma AssignValuesSeeded(s: SessionState, input: string)
    requires s.currentIntent == Some(RegisterFlow) && Seeded(s)
    ensures Seeded(s.(pendingData := AssignValues(s.pendingData, input)))
  {
    var missing := MissingFields(s.pendingData, RegisterFields);
    assert forall k :: k in missing ==> k in RegisterFields;
    AssignKeepsSeeded(s.pendingData, missing, SplitValues(input));
  }

  /** `handle_followup` keeps `Inv`. */
  lemma HandleFollowupInv(s: SessionState, db: Db, input: string, today: string)
    requires Inv(s)
    ensures Inv(HandleFollowup(s, db, input, today).state)
  {
    if s.currentIntent == Some(RegisterFlow) {
      AssignValuesSeeded(s, input);
      ContinueInv(s.(pendingData := AssignValues(s.pendingData, input)), db, today);
    } else if s.currentIntent.Some? {
      ContinueInv(s, db, today);
    }
  }

  /**
   * For the flows keyed by an employee id the follow-up input is never stored: while the id
   * is missing every follow-up gives the same prompt and the same state, whatever is typed.
   */
  lemma EmployeeFlowRepromptsForever(s: SessionState, db: Db, input: string, today: string)
    requires Inv(s)
    requires s.currentIntent.Some? && s.currentIntent != Some(RegisterFlow)
    ensures HandleFollowup(s, db, input, today) == Step(AskEmployeeId, s, db)
  {
  }

  /** A flow keyed by an employee id completes exactly when a truthy id has been collected. */
  lemma EmployeeFlowCompletesIff(s: SessionState, db: Db, today: string, f: Flow)
    requires f != RegisterFlow
    ensures var r := ContinueEmployeeFlow(s, db, today, f);
      (r.state == Idle() <==> Filled(s.pendingData, "employee_id"))
      && (r.state != Idle() ==> r.state.pendingData == s.pendingData && r.state.currentIntent == s.currentIntent)
  {
  }

  /**
   * A stateful intent opens its flow with every truthy field of the parsed intent stored,
   * the "intent" entry included, and no falsy field added.
   */
  lemma HandleIntentSeeds(s: SessionState, db: Db, data: Fields, today: string, f: Flow)
    requires Get(data, "intent") == Some(IntentName(f))
    ensures var r := HandleIntent(s, db, data, today);
      r.state != Idle() ==>
        && r.state.currentIntent == Some(f)
        && (forall k :: k in data && Truthy(data[k]) ==> PendingGet(r.state.pendingData, k) == Some(data[k].value))
        && (forall k :: k in r.state.pendingData ==> k in s.pendingData || (k in data && Truthy(data[k])))
        && PendingGet(r.state.pendingData, "intent") == Some(IntentName(f))
  {
    FlowNamedIntentName(f);
    var s' := Seed(s, f, data);
    var r := HandleIntent(s, db, data, today);
    assert r == Continue(s', db, today);
    if r.state != Idle() {
      assert r.state.pendingData == s'.pendingData;
      assert "intent" in data && Truthy(data["intent"]);
    }
  }

  /** The parser's `assign_working_hours` and `attendance_info` have no branch here. */
  lemma ParserOnlyIntentsRefused(s: SessionState, db: Db, data: Fields, today: string)
    requires Get(data, "intent") == Some("assign_working_hours") || Get(data, "intent") == Some("attendance_info")
    ensures HandleIntent(s, db, data, today) == Step(CannotHandle, s, db)
  {
  }

  /** With name, email and department filled, nothing is missing. */
  lemma NoneMissing(pd: PendingData)
    requires Filled(pd, "name") && Filled(pd, "email") && Filled(pd, "department")
    ensures MissingFields(pd, RegisterFields) == []
  {
    assert RegisterFields[1..] == ["email", "department"];
    assert RegisterFields[2..] == ["department"];
    assert RegisterFields[3..] == [];
    assert MissingFields(pd, RegisterFields[3..]) == [];
    assert MissingFields(pd, RegisterFields[2..]) == [];
    assert MissingFields(pd, RegisterFields[1..]) == [];
  }

  /** A registration intent carrying only a name asks for email and department. */
  lemma RegisterAsksForRest(db: Db, today: string, name: string)
    requires name != ""
    ensures var data := map["intent" := Some("register_employee"), "name" := Some(name), "email" := None];
      HandleIntent(Idle(), db, data, today) ==
        Step(AskRegisterDetails(["email", "department"]),
             SessionState(Some(RegisterFlow), map["intent" := "register_employee", "name" := name], Some("email")),
             db)
  {
    var data := map["intent" := Some("register_employee"), "name" := Some(name), "email" := None];
    FlowNamedIntentName(RegisterFlow);
    var s1 := Seed(Idle(), RegisterFlow, data);
    var pd := map["intent" := "register_employee", "name" := name];
    assert s1.pendingData == pd;
    assert MissingFields(pd, RegisterFields) == ["email", "department"] by {
      assert Filled(pd, "name") && !Filled(pd, "email") && !Filled(pd, "department");
      assert RegisterFields[1..] == ["email", "department"];
      assert RegisterFields[2..] == ["department"];
      assert RegisterFields[3..] == [];
      assert MissingFields(pd, RegisterFields[3..]) == [];
      assert MissingFields(pd, RegisterFields[2..]) == ["department"];
      assert MissingFields(pd, RegisterFields[1..]) == ["email", "department"];
    }
    assert HandleIntent(Idle(), db, data, today) == ContinueRegister(s1, db);
  }

  /**
   * Answering that prompt with "email,department" registers exactly the collected values and
   * resets the state.
   */
  lemma RegisterCompletesWithRest(db: Db, today: string, name: string, email: string, department: string)
    requires name != "" && email != "" && department != ""
    requires IsTrimmed(email) && IsTrimmed(department) && ',' !in email && ',' !in department
    ensures var pd := map["intent" := "register_employee", "name" := name];
      var s := SessionState(Some(RegisterFlow), pd, Some("email"));
      HandleFollowup(s, db, email + "," + department, today) ==
        var (result, employees) := RegisterEmployee(db.employees, name, email, department);
        Step(Registration(result), Idle(), db.(employees := employees))
  {
    var pd := map["intent" := "register_employee", "name" := name];
    var missing := MissingFields(pd, RegisterFields);
    assert missing == ["email", "department"] by {
      assert Filled(pd, "name") && !Filled(pd, "email") && !Filled(pd, "department");
      assert RegisterFields[1..] == ["email", "department"];
      assert RegisterFields[2..] == ["department"];
      assert RegisterFields[3..] == [];
      assert MissingFields(pd, RegisterFields[3..]) == [];
      assert MissingFields(pd, RegisterFields[2..]) == ["department"];
      assert MissingFields(pd, RegisterFields[1..]) == ["email", "department"];
    }
    assert Join([email, department], ",") == email + "," + department;
    SplitValuesJoin([email, department]);
    var pd' := AssignValues(pd, email + "," + department);
    assert pd'["email"] == email && pd'["department"] == department && pd'["name"] == name by {
      assert missing[0] == "email" && missing[1] == "department";
      assert "name" !in missing[..2];
    }
    NoneMissing(pd');
  }
}

=== FILE: report_agent.dfy ===
/** agents/report_agent.py: the checks before a daily report, and the worked time. */
module ReportAgent {
  import opened Common
  import opened Strings
  import opened Database

  /**
   * `datetime.strptime(s, "%H:%M")` as minutes after midnight: one or two digits of hour up
   * to 23, a colon, one or two digits of minute up to 59, and nothing else.
   */
  function ParseClock(s: string): (r: Option<nat>)
    ensures r.Some? ==> r.value < 24 * 60
  {
    if ':' !in s then None
    else
      var i := IndexOf(s, ':');
      var h := s[..i];
      var m := s[i + 1..];
      if 1 <= |h| <= 2 && 1 <= |m| <= 2 && AllDigits(h) && AllDigits(m)
         && DigitsValue(h) <= 23 && DigitsValue(m) <= 59
      then Some(DigitsValue(h) * 60 + DigitsValue(m))
      else None
  }

  /** The "HH:MM" rendering of a time of day. */
  function FormatClock(minutes: nat): (s: string)
    requires minutes < 24 * 60
    ensures |s| == 5 && s[2] == ':'
  {
    var h := minutes / 60;
    var m := minutes % 60;
    [DigitChar(h / 10), DigitChar(h % 10), ':', DigitChar(m / 10), DigitChar(m % 10)]
  }

  lemma TwoDigits(a: nat, b: nat)
    requires a < 10 && b < 10
    ensures DigitsValue([DigitChar(a), DigitChar(b)]) == 10 * a + b
  {
    var ds := [DigitChar(a), DigitChar(b)];
    assert ds[..1] == [DigitChar(a)];
    assert [DigitChar(a)][..0] == [];
    assert DigitsValue([DigitChar(a)]) == a;
    assert DigitsValue(ds) == 10 * DigitsValue(ds[..1]) + b;
  }

  /** Every "HH:MM" time reads back as the minute it names. */
  lemma ParseFormatClock(minutes: nat)
    requires minutes < 24 * 60
    ensures ParseClock(FormatClock(minutes)) == Some(minutes)
  {
    var s := FormatClock(minutes);
    var h := minutes / 60;
    var m := minutes % 60;
    IndexOfUnique(s, ':', 2);
    assert s[..2] == [DigitChar(h / 10), DigitChar(h % 10)];
    assert s[3..] == [DigitChar(m / 10), DigitChar(m % 10)];
    TwoDigits(h / 10, h % 10);
    TwoDigits(m / 10, m % 10);
  }

  /**
   * `(end_dt - start_dt).seconds` for two times on the same day: Python folds a negative
   * difference into the previous day, so an end before the start wraps past midnight.
   */
  function WorkingSeconds(startMinutes: nat, endMinutes: nat): (r: nat)
    requires startMinutes < 24 * 60 && endMinutes < 24 * 60
    ensures r < 86400
    ensures startMinutes <= endMinutes ==> r == (endMinutes - startMinutes) * 60
    ensures endMinutes < startMinutes ==> r == 86400 - (startMinutes - endMinutes) * 60
  {
    ((endMinutes - startMinutes) * 60) % 86400
  }

  datatype ReportError = EmployeeNotFound | NoAttendanceRecord | WorkNotStarted | WorkNotEnded

  /** What the report agent hands to the PDF renderer (hours kept as whole seconds). */
  datatype ReportData = ReportData(
    employeeId: nat, name: string, email: string, department: string,
    date: string, startTime: string, endTime: string, workingSeconds: nat)

  datatype ReportResult =
    | ReportFailed(reason: ReportError)
    | BadTimeFormat             // strptime raised ValueError
    | ReportReady(data: ReportData)

  /**
   * `generate_daily_report`: employee, then attendance row, then start time, then end time;
   * the first one missing is the answer. Only with all four present are the times read.
   */
  function GenerateDailyReport(db: Db, employeeId: string, date: Option<string>, today: string): (r: ReportResult)
    ensures r == ReportFailed(EmployeeNotFound) <==> EmployeeByKey(db.employees, employeeId).None?
    ensures r == ReportFailed(NoAttendanceRecord) <==>
      && EmployeeByKey(db.employees, employeeId).Some?
      && AttendanceByKey(db.attendance, employeeId, DateOrToday(date, today)).None?
    ensures r == ReportFailed(WorkNotStarted) <==>
      && EmployeeByKey(db.employees, employeeId).Some?
      && AttendanceByKey(db.attendance, employeeId, DateOrToday(date, today)).Some?
      && !Truthy(AttendanceByKey(db.attendance, employeeId, DateOrToday(date, today)).value.startTime)
    ensures r == ReportFailed(WorkNotEnded) <==>
      && EmployeeByKey(db.employees, employeeId).Some?
      && AttendanceByKey(db.attendance, employeeId, DateOrToday(date, today)).Some?
      && Truthy(AttendanceByKey(db.attendance, employeeId, DateOrToday(date, today)).value.startTime)
      && !Truthy(AttendanceByKey(db.attendance, employeeId, DateOrToday(date, today)).value.endTime)
    ensures r.ReportReady? ==>
      && EmployeeByKey(db.employees, employeeId) == Some(Employee(r.data.employeeId, r.data.name, r.data.email, r.data.department))
      && r.data.date == DateOrToday(date, today)
      && AttendanceByKey(db.attendance, employeeId, r.data.date).Some?
      && AttendanceByKey(db.attendance, employeeId, r.data.date).value.startTime == Some(r.data.startTime)
      && AttendanceByKey(db.attendance, employeeId, r.data.date).value.endTime == Some(r.data.endTime)
      && r.data.startTime != "" && r.data.endTime != ""
      && ParseClock(r.data.startTime).Some? && ParseClock(r.data.endTime).Some?
      && r.data.workingSeconds == WorkingSeconds(ParseClock(r.data.startTime).value, ParseClock(r.data.endTime).value)
    ensures r.BadTimeFormat? ==>
      && AttendanceByKey(db.attendance, employeeId, DateOrToday(date, today)).Some?
      && var a := AttendanceByKey(db.attendance, employeeId, DateOrToday(date, today)).value;
         Truthy(a.startTime) && Truthy(a.endTime)
         && (ParseClock(a.startTime.value).None? || ParseClock(a.endTime.value).None?)
  {
    var day := DateOrToday(date, today);
    match EmployeeByKey(db.employees, employeeId)
    case None => ReportFailed(EmployeeNotFound)
    case Some(e) =>
      match AttendanceByKey(db.attendance, employeeId, day)
      case None => ReportFailed(NoAttendanceRecord)
      case Some(a) =>
        if !Truthy(a.startTime) then ReportFailed(WorkNotStarted)
        else if !Truthy(a.endTime) then ReportFailed(WorkNotEnded)
        else
          match (ParseClock(a.startTime.value), ParseClock(a.endTime.value))
          case (Some(s), Some(t)) =>
            ReportReady(ReportData(e.id, e.name, e.email, e.department, day,
                                   a.startTime.value, a.endTime.value, WorkingSeconds(s, t)))
          case _ => BadTimeFormat
  }

  /** A report is produced exactly when employee, row, and both well-formed times are present. */
  lemma ReadyIffComplete(db: Db, employeeId: string, date: Option<string>, today: string)
    ensures GenerateDailyReport(db, employeeId, date, today).ReportReady? <==>
      && EmployeeByKey(db.employees, employeeId).Some?
      && var a := AttendanceByKey(db.attendance, employeeId, DateOrToday(date, today));
         && a.Some? && Truthy(a.value.startTime) && Truthy(a.value.endTime)
         && ParseClock(a.value.startTime.value).Some? && ParseClock(a.value.endTime.value).Some?
  {
  }
}

=== FILE: session.dfy ===
/**
 * main.py: one pass of the input loop. The line is stripped; "exit" in any letter case ends
 * the session; an active flow takes the line as a follow-up; otherwise the line is
 * classified and, unless the intent is "unknown", handed to `handle_intent`.
 *
 * Console input and printing are not modelled: the typed line is a parameter and the
 * outcome says what would be printed. The model's reply to the classification prompt and
 * the JSON decoder are parameters, as in the intent parser.
 */
module Session {
  import opened Common
  import opened Strings
  import opened Database
  import opened IntentParser
  import opened Orchestrator

  datatype Outcome =
    | Exit               // "Goodbye", and the loop ends
    | NotUnderstood      // "Sorry, I couldn't understand that", and the loop goes on
    | Respond(reply: Reply)

  datatype Turn = Turn(outcome: Outcome, state: SessionState, db: Db)

  /** `user_input.lower() == "exit"` on the stripped line. */
  predicate IsExit(input: string) {
    Lower(input) == "exit"
  }

  /** One pass of the loop in `main`, from the line as typed to the outcome and the next state. */
  function MainStep(s: SessionState, db: Db, rawInput: string, today: string,
                    reply: Option<string>, decode: string -> Option<Fields>): (r: Turn)
    ensures var input := Trim(rawInput);
      && (r.outcome.Exit? <==> IsExit(input))
      && (r.outcome.Exit? || r.outcome.NotUnderstood? ==> r.state == s && r.db == db)
      && (!IsExit(input) && HasActiveState(s) ==>
            var step := HandleFollowup(s, db, input, today);
            r == Turn(Respond(step.reply), step.state, step.db))
      && (!IsExit(input) && !HasActiveState(s) ==>
            var data := ParseIntent(input, today, reply, decode);
            && (r.outcome.NotUnderstood? <==> Get(data, "intent") == Some("unknown"))
            && (Get(data, "intent") != Some("unknown") ==>
                  var step := HandleIntent(s, db, data, today);
                  r == Turn(Respond(step.reply), step.state, step.db)))
  {
    var input := Trim(rawInput);
    if IsExit(input) then Turn(Exit, s, db)
    else if HasActiveState(s) then
      var step := HandleFollowup(s, db, input, today);
      Turn(Respond(step.reply), step.state, step.db)
    else
      var data := ParseIntent(input, today, reply, decode);
      if Get(data, "intent") == Some("unknown") then Turn(NotUnderstood, s, db)
      else
        var step := HandleIntent(s, db, data, today);
        Turn(Respond(step.reply), step.state, step.db)
  }

  /** The exit word matches in any mix of upper and lower case, and nothing else matches. */
  lemma ExitInAnyCase(input: string)
    ensures IsExit(input) <==>
      && |input| == 4
      && (input[0] == 'e' || input[0] == 'E')
      && (input[1] == 'x' || input[1] == 'X')
      && (input[2] == 'i' || input[2] == 'I')
      && (input[3] == 't' || input[3] == 'T')
  {
    if |input| == 4 {
      var l := Lower(input);
      assert l == [l[0], l[1], l[2], l[3]];
    }
  }

  /** While a flow is active the classifier's answer makes no difference. */
  lemma FollowupIgnoresClassifier(s: SessionState, db: Db, rawInput: string, today: string,
                                  reply1: Option<string>, decode1: string -> Option<Fields>,
                                  reply2: Option<string>, decode2: string -> Option<Fields>)
    requires HasActiveState(s)
    ensures MainStep(s, db, rawInput, today, reply1, decode1) == MainStep(s, db, rawInput, today, reply2, decode2)
  {
  }

  /** When the model's answer cannot be used, an idle session reports that it did not understand. */
  lemma ModelFailureNotUnderstood(s: SessionState, db: Db, rawInput: string, today: string,
                                  reply: Option<string>, decode: string -> Option<Fields>)
    requires !IsExit(Trim(rawInput)) && !HasActiveState(s)
    requires LlmFields(reply, decode).None?
    ensures MainStep(s, db, rawInput, today, reply, decode) == Turn(NotUnderstood, s, db)
  {
    assert Get(FallbackIntent(), "intent") == Some("unknown");
  }

  /** Every turn keeps the orchestrator's invariant, starting from a new session. */
  lemma MainStepInv(s: SessionState, db: Db, rawInput: string, today: string,
                    reply: Option<string>, decode: string -> Option<Fields>)
    requires Inv(s)
    ensures Inv(MainStep(s, db, rawInput, today, reply, decode).state)
  {
    var input := Trim(rawInput);
    if !IsExit(input) {
      if HasActiveState(s) {
        HandleFollowupInv(s, db, input, today);
      } else {
        var data := ParseIntent(input, today, reply, decode);
        if Get(data, "intent") != Some("unknown") {
          HandleIntentInv(s, db, data, today);
        }
      }
    }
  }
}

=== FILE: strings.dfy ===
/** The parts of Python's `str` the modelled code uses: strip, case mapping, `in`, split, find, int(). */
module Strings {
  import opened Common

  /** The characters Python's `str.isspace()` accepts, which is what `str.strip()` removes. */
  predicate IsSpace(c: char) {
    || c == ' ' || '\t' <= c <= '\r' || '\U{1C}' <= c <= '\U{1F}'
    || c == '\U{85}' || c == '\U{A0}' || c == '\U{1680}'
    || '\U{2000}' <= c <= '\U{200A}' || c == '\U{2028}' || c == '\U{2029}'
    || c == '\U{202F}' || c == '\U{205F}' || c == '\U{3000}'
  }

  /** Neither end of `s` is whitespace: `s.strip()` would leave it alone. */
  predicate IsTrimmed(s: string) {
    s == [] || (!IsSpace(s[0]) && !IsSpace(s[|s| - 1]))
  }

  /** `s.lstrip()`: drops the leading whitespace and nothing else. */
  function TrimStart(s: string): (r: string)
    ensures |r| <= |s| && r == s[|s| - |r|..]
    ensures forall i :: 0 <= i < |s| - |r| ==> IsSpace(s[i])
    ensures r == [] || !IsSpace(r[0])
  {
    if |s| > 0 && IsSpace(s[0]) then TrimStart(s[1..]) else s
  }

  /** `s.rstrip()`: drops the trailing whitespace and nothing else. */
  function TrimEnd(s: string): (r: string)
    ensures |r| <= |s| && r == s[..|r|]
    ensures forall i :: |r| <= i < |s| ==> IsSpace(s[i])
    ensures r == [] || !IsSpace(r[|r| - 1])
  {
    if |s| > 0 && IsSpace(s[|s| - 1]) then TrimEnd(s[..|s| - 1]) else s
  }

  /** `s.strip()`. */
  function Trim(s: string): (r: string)
    ensures IsTrimmed(r) && |r| <= |s|
    ensures r == [] <==> forall i :: 0 <= i < |s| ==> IsSpace(s[i])
  {
    TrimEnd(TrimStart(s))
  }

  /** Stripping a stripped string changes nothing. */
  lemma TrimTrimmed(s: string)
    requires IsTrimmed(s)
    ensures Trim(s) == s
  {
  }

  /** A leading space never survives `strip()`. */
  lemma TrimLeadingSpace(s: string)
    ensures Trim([' '] + s) == Trim(s)
  {
    assert ([' '] + s)[1..] == s;
  }

  /** ASCII upper case to lower case; every other character is kept. */
  function LowerChar(c: char): char {
    if 'A' <= c <= 'Z' then (c as int - 'A' as int + 'a' as int) as char else c
  }

  /** ASCII lower case to upper case; every other character is kept. */
  function UpperChar(c: char): char {
    if 'a' <= c <= 'z' then (c as int - 'a' as int + 'A' as int) as char else c
  }

  /** `s.lower()`, restricted to ASCII letters. */
  function Lower(s: string): (r: string)
    ensures |r| == |s|
    ensures forall i :: 0 <= i < |s| ==> r[i] == LowerChar(s[i])
  {
    seq(|s|, i requires 0 <= i < |s| => LowerChar(s[i]))
  }

  /** `s.upper()`, restricted to ASCII letters. */
  function Upper(s: string): (r: string)
    ensures |r| == |s|
    ensures forall i :: 0 <= i < |s| ==> r[i] == UpperChar(s[i])
  {
    seq(|s|, i requires 0 <= i < |s| => UpperChar(s[i]))
  }

  /** `sub` occurs in `s` starting at position `i`. */
  predicate OccursAt(s: string, sub: string, i: nat) {
    i + |sub| <= |s| && s[i..i + |sub|] == sub
  }

  /** Python's `sub in s` on strings. */
  predicate Contains(s: string, sub: string) {
    exists i: nat | i <= |s| :: OccursAt(s, sub, i)
  }

  /** Python's `any(k in s for k in subs)`. */
  predicate ContainsAny(s: string, subs: seq<string>) {
    exists j :: 0 <= j < |subs| && Contains(s, subs[j])
  }

  /** The first position of `c` in `s`. */
  function IndexOf(s: string, c: char): (i: nat)
    requires c in s
    ensures i < |s| && s[i] == c && c !in s[..i]
  {
    if s[0] == c then 0
    else
      var j := IndexOf(s[1..], c);
      assert s[1..][..j] == s[1..j + 1];
      1 + j
  }

  /** The first position is the only one with no earlier occurrence. */
  lemma IndexOfUnique(s: string, c: char, i: nat)
    requires i < |s| && s[i] == c && c !in s[..i]
    ensures IndexOf(s, c) == i
  {
  }

  /** `s.find(c)`, with `None` for Python's -1. */
  function Find(s: string, c: char): (r: Option<nat>)
    ensures r.None? <==> c !in s
    ensures r.Some? ==> r.value < |s| && s[r.value] == c && c !in s[..r.value]
  {
    if c in s then Some(IndexOf(s, c)) else None
  }

  /** `s.rfind(c)`, with `None` for Python's -1. */
  function RFind(s: string, c: char): (r: Option<nat>)
    ensures r.None? <==> c !in s
    ensures r.Some? ==> r.value < |s| && s[r.value] == c && c !in s[r.value + 1..]
  {
    if |s| == 0 then None
    else if s[|s| - 1] == c then Some(|s| - 1)
    else
      var r := RFind(s[..|s| - 1], c);
      assert s == s[..|s| - 1] + [s[|s| - 1]];
      assert r.Some? ==> s[r.value + 1..] == s[..|s| - 1][r.value + 1..] + [s[|s| - 1]];
      r
  }

  /** `s.split(sep)` for a one-character separator: never empty, and no piece holds `sep`. */
  function Split(s: string, sep: char): (parts: seq<string>)
    ensures |parts| > 0
    ensures forall k :: 0 <= k < |parts| ==> sep !in parts[k]
    decreases |s|
  {
    if sep !in s then [s]
    else
      var i := IndexOf(s, sep);
      [s[..i]] + Split(s[i + 1..], sep)
  }

  /** `sep.join(parts)`. */
  function Join(parts: seq<string>, sep: string): string {
    if |parts| == 0 then ""
    else if |parts| == 1 then parts[0]
    else parts[0] + sep + Join(parts[1..], sep)
  }

  /** Joining the pieces of a split with the separator gives the string back. */
  lemma {:induction false} JoinSplit(s: string, sep: char)
    ensures Join(Split(s, sep), [sep]) == s
    decreases |s|
  {
    if sep in s {
      var i := IndexOf(s, sep);
      var rest := Split(s[i + 1..], sep);
      JoinSplit(s[i + 1..], sep);
      assert Split(s, sep) == [s[..i]] + rest;
      assert ([s[..i]] + rest)[1..] == rest;
      assert s == s[..i] + [sep] + s[i + 1..];
    }
  }

  /** Splitting a join of separator-free pieces gives the pieces back. */
  lemma {:induction false} SplitJoin(parts: seq<string>, sep: char)
    requires |parts| > 0
    requires forall k :: 0 <= k < |parts| ==> sep !in parts[k]
    ensures Split(Join(parts, [sep]), sep) == parts
  {
    if |parts| > 1 {
      var rest := Join(parts[1..], [sep]);
      var s := parts[0] + [sep] + rest;
      assert Join(parts, [sep]) == s;
      assert s[..|parts[0]|] == parts[0];
      IndexOfUnique(s, sep, |parts[0]|);
      assert s[|parts[0]| + 1..] == rest;
      SplitJoin(parts[1..], sep);
      assert parts == [parts[0]] + parts[1..];
    }
  }

  predicate IsDigit(c: char) {
    '0' <= c <= '9'
  }

  predicate AllDigits(s: string) {
    forall i :: 0 <= i < |s| ==> IsDigit(s[i])
  }

  /** The decimal value of a digit string (most significant digit first). */
  function DigitsValue(ds: string): nat
    requires AllDigits(ds)
  {
    if ds == [] then 0
    else 10 * DigitsValue(ds[..|ds| - 1]) + (ds[|ds| - 1] as int - '0' as int)
  }

  /** `[+-]?[0-9]+` read as an integer; `None` for anything else. */
  function ParseDecimal(s: string): (r: Option<int>)
    ensures r.Some? ==> |s| > 0
  {
    if |s| > 0 && (s[0] == '+' || s[0] == '-') then
      if |s| > 1 && AllDigits(s[1..]) then
        var v: int := DigitsValue(s[1..]);
        Some(if s[0] == '-' then -v else v)
      else None
    else if |s| > 0 && AllDigits(s) then Some(DigitsValue(s))
    else None
  }

  /** Python's `int(s)` on a string, surrounding whitespace allowed. */
  function IntValue(s: string): Option<int> {
    ParseDecimal(Trim(s))
  }

  function DigitChar(d: nat): (c: char)
    requires d < 10
    ensures IsDigit(c) && c as int - '0' as int == d
  {
    ('0' as int + d) as char
  }

  /** `str(n)` for a natural number. */
  function ShowNat(n: nat): (r: string)
    ensures |r| > 0 && AllDigits(r)
  {
    if n < 10 then [DigitChar(n)]
    else ShowNat(n / 10) + [DigitChar(n % 10)]
  }

  lemma {:induction false} ShowNatValue(n: nat)
    ensures DigitsValue(ShowNat(n)) == n
  {
    if n >= 10 {
      var s := ShowNat(n);
      assert s[..|s| - 1] == ShowNat(n / 10);
      ShowNatValue(n / 10);
    }
  }

  /** `int(str(n)) == n`: the decimal rendering of an id reads back as that id. */
  lemma ShowNatRoundTrip(n: nat)
    ensures IntValue(ShowNat(n)) == Some(n)
  {
    var s := ShowNat(n);
    assert IsDigit(s[0]) && IsDigit(s[|s| - 1]);
    assert !IsSpace(s[0]) && !IsSpace(s[|s| - 1]);
    TrimTrimmed(s);
    assert s[0] != '+' && s[0] != '-';
    assert ParseDecimal(s) == Some(DigitsValue(s));
    ShowNatValue(n);
  }

  /** Each piece stripped. */
  function TrimEach(parts: seq<string>): (r: seq<string>)
    ensures |r| == |parts|
    ensures forall k :: 0 <= k < |r| ==> r[k] == Trim(parts[k]) && IsTrimmed(r[k])
  {
    seq(|parts|, k requires 0 <= k < |parts| => Trim(parts[k]))
  }

  /** The pieces that are not empty, in their order. */
  function NonEmpty(pieces: seq<string>): (r: seq<string>)
    ensures IsSubsequence(r, pieces)
    ensures forall v :: v in r <==> v in pieces && v != ""
  {
    if pieces == [] then []
    else
      var rest := NonEmpty(pieces[1..]);
      if pieces[0] == "" then
        assert rest != [] ==> rest[0] in rest;
        rest
      else [pieces[0]] + rest
  }

  /** `NonEmpty` drops only the empty pieces: every other piece is kept as often as it occurs. */
  lemma {:induction false} NonEmptyCounts(pieces: seq<string>)
    ensures multiset(NonEmpty(pieces)) == multiset(pieces)["" := 0]
  {
    if pieces != [] {
      NonEmptyCounts(pieces[1..]);
      assert pieces == [pieces[0]] + pieces[1..];
    }
  }

  /** Stripped pieces stay stripped, and none of the kept ones is empty. */
  lemma NonEmptyTrimmed(pieces: seq<string>)
    requires forall k :: 0 <= k < |pieces| ==> IsTrimmed(pieces[k])
    ensures forall k :: 0 <= k < |NonEmpty(pieces)| ==> NonEmpty(pieces)[k] != "" && IsTrimmed(NonEmpty(pieces)[k])
  {
    var r := NonEmpty(pieces);
    forall k | 0 <= k < |r|
      ensures r[k] != "" && IsTrimmed(r[k])
    {
      assert r[k] in r;
      var j :| 0 <= j < |pieces| && pieces[j] == r[k];
    }
  }

  /** Pieces that are all non-empty pass through unchanged. */
  lemma {:induction false} NonEmptyOfClean(pieces: seq<string>)
    requires forall k :: 0 <= k < |pieces| ==> pieces[k] != ""
    ensures NonEmpty(pieces) == pieces
  {
    if pieces != [] {
      NonEmptyOfClean(pieces[1..]);
    }
  }

  lemma TrimEachOfTrimmed(pieces: seq<string>)
    requires forall k :: 0 <= k < |pieces| ==> IsTrimmed(pieces[k])
    ensures TrimEach(pieces) == pieces
  {
    forall k | 0 <= k < |pieces|
      ensures Trim(pieces[k]) == pieces[k]
    {
      TrimTrimmed(pieces[k]);
    }
  }

  /** A piece added at the end is kept iff it is not empty. */
  lemma {:induction false} NonEmptySnoc(pieces: seq<string>, p: string)
    ensures NonEmpty(pieces + [p]) == NonEmpty(pieces) + (if p != "" then [p] else [])
  {
    if pieces == [] {
      assert [p][1..] == [];
    } else {
      assert (pieces + [p])[1..] == pieces[1..] + [p];
      NonEmptySnoc(pieces[1..], p);
    }
  }
}

=== FILE: vector_store.dfy ===
/**
 * utils/vector_store.py: how `load` cuts the policy text into documents, and the guards of
 * `search`. Embeddings and the FAISS index are not modelled; `search` takes the nearest
 * neighbour's position as a parameter.
 */
module VectorStore {
  import opened Common
  import opened Strings

  /** The line boundaries of Python's `str.splitlines()`. */
  predicate IsLineBreak(c: char) {
    c == '\n' || c == '\r' || c == '\U{0B}' || c == '\U{0C}' || '\U{1C}' <= c <= '\U{1E}'
    || c == '\U{85}' || c == '\U{2028}' || c == '\U{2029}'
  }

  predicate NoLineBreak(s: string) {
    forall i :: 0 <= i < |s| ==> !IsLineBreak(s[i])
  }

  /** The position of the first line boundary in `s`. */
  function FirstBreak(s: string): (r: Option<nat>)
    ensures r.Some? ==> r.value < |s| && IsLineBreak(s[r.value]) && NoLineBreak(s[..r.value])
    ensures r.None? ==> NoLineBreak(s)
  {
    if s == [] then None
    else if IsLineBreak(s[0]) then Some(0)
    else match FirstBreak(s[1..])
      case None => None
      case Some(i) => Some(i + 1)
  }

  /** `text.splitlines()`: "\r\n" is one boundary, and a final boundary adds no empty line. */
  function SplitLines(s: string): (lines: seq<string>)
    ensures forall k :: 0 <= k < |lines| ==> NoLineBreak(lines[k])
    ensures s == [] <==> lines == []
    decreases |s|
  {
    if s == [] then []
    else match FirstBreak(s)
      case None => [s]
      case Some(i) =>
        var next := if s[i] == '\r' && i + 1 < |s| && s[i + 1] == '\n' then i + 2 else i + 1;
        [s[..i]] + SplitLines(s[next..])
  }

  /** The text with every line boundary character removed. */
  function WithoutBreaks(s: string): string {
    if s == [] then []
    else (if IsLineBreak(s[0]) then [] else [s[0]]) + WithoutBreaks(s[1..])
  }

  /** The lines written back to back. */
  function Concat(lines: seq<string>): string {
    if lines == [] then [] else lines[0] + Concat(lines[1..])
  }

  lemma {:induction false} WithoutBreaksAppend(a: string, b: string)
    ensures WithoutBreaks(a + b) == WithoutBreaks(a) + WithoutBreaks(b)
  {
    if a == [] {
      assert a + b == b;
    } else {
      assert (a + b)[0] == a[0];
      assert (a + b)[1..] == a[1..] + b;
      WithoutBreaksAppend(a[1..], b);
    }
  }

  lemma {:induction false} WithoutBreaksOfLine(a: string)
    requires NoLineBreak(a)
    ensures WithoutBreaks(a) == a
  {
    if a != [] {
      assert NoLineBreak(a[1..]) by {
        forall i | 0 <= i < |a| - 1
          ensures !IsLineBreak(a[1..][i])
        {
          assert a[1..][i] == a[i + 1];
        }
      }
      WithoutBreaksOfLine(a[1..]);
    }
  }

  /** One boundary, "\r\n" or a single character, leaves nothing behind. */
  lemma WithoutBreaksOfBoundary(b: string)
    requires (|b| == 1 && IsLineBreak(b[0])) || (|b| == 2 && IsLineBreak(b[0]) && IsLineBreak(b[1]))
    ensures WithoutBreaks(b) == []
  {
    if |b| == 2 {
      assert b[1..][0] == b[1];
      assert b[1..][1..] == [];
    }
  }

  /** The text around its first boundary, and the boundary's length. */
  lemma SplitAtBreak(s: string, i: nat, next: nat)
    requires i < next <= |s| && NoLineBreak(s[..i])
    requires (next == i + 1 && IsLineBreak(s[i])) || (next == i + 2 && IsLineBreak(s[i]) && IsLineBreak(s[i + 1]))
    ensures WithoutBreaks(s) == s[..i] + WithoutBreaks(s[next..])
  {
    var pre, mid, post := s[..i], s[i..next], s[next..];
    assert s == pre + mid + post;
    WithoutBreaksAppend(pre + mid, post);
    WithoutBreaksAppend(pre, mid);
    WithoutBreaksOfLine(pre);
    assert mid[0] == s[i];
    assert next == i + 2 ==> mid[1] == s[i + 1];
    WithoutBreaksOfBoundary(mid);
  }

  /** Nothing is lost but the boundaries: the lines back to back are the text without its line breaks. */
  lemma {:induction false} SplitLinesConcat(s: string)
    ensures Concat(SplitLines(s)) == WithoutBreaks(s)
    decreases |s|
  {
    if s != [] {
      var fb := FirstBreak(s);
      if fb.None? {
        WithoutBreaksOfLine(s);
      } else {
        var i := fb.value;
        var next := if s[i] == '\r' && i + 1 < |s| && s[i + 1] == '\n' then i + 2 else i + 1;
        assert SplitLines(s) == [s[..i]] + SplitLines(s[next..]);
        SplitLinesConcat(s[next..]);
        SplitAtBreak(s, i, next);
      }
    }
  }

  /** The lines written one per row, each ended by "\n". */
  function Terminated(lines: seq<string>): string {
    if lines == [] then [] else lines[0] + "\n" + Terminated(lines[1..])
  }

  /** The first boundary of a line followed by a boundary is the end of that line. */
  lemma {:induction false} FirstBreakAt(a: string, b: string)
    requires NoLineBreak(a) && b != [] && IsLineBreak(b[0])
    ensures FirstBreak(a + b) == Some(|a|)
  {
    if a == [] {
      assert a + b == b;
    } else {
      var s := a + b;
      assert s[0] == a[0];
      assert s[1..] == a[1..] + b;
      assert NoLineBreak(a[1..]) by {
        forall i | 0 <= i < |a| - 1
          ensures !IsLineBreak(a[1..][i])
        {
          assert a[1..][i] == a[i + 1];
        }
      }
      FirstBreakAt(a[1..], b);
    }
  }

  /** Lines without boundaries, written one per row, are split back into exactly those lines. */
  lemma {:induction false} SplitLinesTerminated(lines: seq<string>)
    requires forall k :: 0 <= k < |lines| ==> NoLineBreak(lines[k])
    ensures SplitLines(Terminated(lines)) == lines
  {
    if lines != [] {
      var s := Terminated(lines);
      var rest := Terminated(lines[1..]);
      assert s == lines[0] + ("\n" + rest);
      FirstBreakAt(lines[0], "\n" + rest);
      var i := |lines[0]|;
      assert s[i] == '\n';
      assert s[..i] == lines[0];
      assert s[i + 1..] == rest;
      SplitLinesTerminated(lines[1..]);
    }
  }

  /** Python's `str.isupper()` on ASCII: some upper-case letter and no lower-case one. */
  predicate IsUpperText(s: string) {
    && (exists i :: 0 <= i < |s| && 'A' <= s[i] <= 'Z')
    && (forall i :: 0 <= i < |s| ==> !('a' <= s[i] <= 'z'))
  }

  /** A policy heading: an all-capitals line mentioning POLICY, or exactly CODE OF CONDUCT. */
  predicate IsHeading(line: string)
    ensures IsHeading(line) ==> line != [] && forall i :: 0 <= i < |line| ==> !('a' <= line[i] <= 'z')
  {
    (IsUpperText(line) && Contains(line, "POLICY")) || line == "CODE OF CONDUCT"
  }

  /** The lines the loop of `load` acts on: each stripped, blank ones skipped. */
  function CleanLines(raw: seq<string>): (ls: seq<string>)
    ensures |ls| <= |raw|
    ensures forall k :: 0 <= k < |ls| ==> ls[k] != "" && IsTrimmed(ls[k])
  {
    if raw == [] then []
    else
      var line := Trim(raw[|raw| - 1]);
      CleanLines(raw[..|raw| - 1]) + (if line != "" then [line] else [])
  }

  /** The cleaned lines are the stripped lines with the blank ones left out, in order and each as often as it occurs. */
  lemma {:induction false} CleanLinesReference(raw: seq<string>)
    ensures CleanLines(raw) == NonEmpty(TrimEach(raw))
  {
    if raw != [] {
      var init := raw[..|raw| - 1];
      CleanLinesReference(init);
      assert TrimEach(raw) == TrimEach(init) + [Trim(raw[|raw| - 1])];
      NonEmptySnoc(TrimEach(init), Trim(raw[|raw| - 1]));
    }
  }

  /** Hence every non-blank line survives, stripped, as often as it occurs and in order. */
  lemma CleanLinesKeepsLines(raw: seq<string>)
    ensures IsSubsequence(CleanLines(raw), TrimEach(raw))
    ensures multiset(CleanLines(raw)) == multiset(TrimEach(raw))["" := 0]
  {
    CleanLinesReference(raw);
    NonEmptyCounts(TrimEach(raw));
  }

  function Flatten(gs: seq<seq<string>>): seq<string> {
    if gs == [] then [] else gs[0] + Flatten(gs[1..])
  }

  lemma {:induction false} FlattenSnoc(gs: seq<seq<string>>, g: seq<string>)
    ensures Flatten(gs + [g]) == Flatten(gs) + g
  {
    if gs != [] {
      assert (gs + [g])[1..] == gs[1..] + [g];
      FlattenSnoc(gs[1..], g);
    }
  }

  /** Each group holds its heading only in front. */
  ghost predicate WellGrouped(gs: seq<seq<string>>) {
    && (forall k :: 0 <= k < |gs| ==> |gs[k]| > 0)
    && (forall k, j :: 0 <= k < |gs| && 1 <= j < |gs[k]| ==> !IsHeading(gs[k][j]))
    && (forall k :: 0 < k < |gs| ==> IsHeading(gs[k][0]))
  }

  /**
   * The lines of each future document: every heading opens a new group, every other line
   * joins the group before it, and lines before the first heading form a group of their own.
   */
  function Groups(ls: seq<string>): (gs: seq<seq<string>>)
    ensures ls == [] <==> gs == []
  {
    if ls == [] then []
    else
      var gs := Groups(ls[..|ls| - 1]);
      var line := ls[|ls| - 1];
      if IsHeading(line) || gs == [] then gs + [[line]]
      else gs[..|gs| - 1] + [gs[|gs| - 1] + [line]]
  }

  /** The groups hold the cleaned lines, each once and in order. */
  lemma {:induction false} GroupsFlatten(ls: seq<string>)
    ensures Flatten(Groups(ls)) == ls
  {
    if ls != [] {
      var init := ls[..|ls| - 1];
      var gs := Groups(init);
      var line := ls[|ls| - 1];
      GroupsFlatten(init);
      assert ls == init + [line];
      if IsHeading(line) || gs == [] {
        FlattenSnoc(gs, [line]);
      } else {
        var last := gs[|gs| - 1];
        assert gs == gs[..|gs| - 1] + [last];
        FlattenSnoc(gs[..|gs| - 1], last);
        FlattenSnoc(gs[..|gs| - 1], last + [line]);
      }
    }
  }

  /** No group is empty. */
  lemma {:induction false} GroupsNonEmpty(ls: seq<string>)
    ensures forall k :: 0 <= k < |Groups(ls)| ==> |Groups(ls)[k]| > 0
  {
    if ls != [] {
      GroupsNonEmpty(ls[..|ls| - 1]);
    }
  }

  /** Each heading opens a group, and no group holds a heading after its first line. */
  lemma {:induction false} GroupsWellGrouped(ls: seq<string>)
    ensures WellGrouped(Groups(ls))
  {
    if ls != [] {
      var init := ls[..|ls| - 1];
      var line := ls[|ls| - 1];
      GroupsWellGrouped(init);
      GroupsNonEmpty(init);
      if IsHeading(line) || Groups(init) == [] {
        HeadingGroupWellGrouped(Groups(init), line);
      } else {
        TextGroupWellGrouped(Groups(init), line);
      }
    }
  }

  lemma HeadingGroupWellGrouped(gs: seq<seq<string>>, line: string)
    requires WellGrouped(gs)
    requires IsHeading(line) || gs == []
    ensures WellGrouped(gs + [[line]])
  {
    var gs' := gs + [[line]];
    assert forall k :: 0 <= k < |gs| ==> gs'[k] == gs[k];
  }

  lemma TextGroupWellGrouped(gs: seq<seq<string>>, line: string)
    requires WellGrouped(gs) && gs != []
    requires !IsHeading(line)
    ensures WellGrouped(gs[..|gs| - 1] + [gs[|gs| - 1] + [line]])
  {
    var n := |gs|;
    var last := gs[n - 1];
    var gs' := gs[..n - 1] + [last + [line]];
    assert forall k :: 0 <= k < n - 1 ==> gs'[k] == gs[k];
    assert forall j :: 0 <= j < |last| ==> gs'[n - 1][j] == last[j];
    assert gs'[n - 1][|last|] == line;
  }

  /** Joining with one space is extended by one more line. */
  lemma {:induction false} JoinSnoc(g: seq<string>, line: string)
    requires |g| > 0
    ensures Join(g + [line], " ") == Join(g, " ") + " " + line
  {
    if |g| > 1 {
      assert (g + [line])[1..] == g[1..] + [line];
      JoinSnoc(g[1..], line);
    }
  }

  /** Non-empty stripped lines joined by spaces give a non-empty stripped document. */
  lemma {:induction false} JoinTrimmed(g: seq<string>)
    requires |g| > 0
    requires forall k :: 0 <= k < |g| ==> g[k] != "" && IsTrimmed(g[k])
    ensures var d := Join(g, " ");
      d != "" && IsTrimmed(d) && d[0] == g[0][0] && d[|d| - 1] == g[|g| - 1][|g[|g| - 1]| - 1]
  {
    if |g| > 1 {
      JoinTrimmed(g[1..]);
    }
  }

  function JoinEach(gs: seq<seq<string>>): (docs: seq<string>)
    ensures |docs| == |gs|
    ensures forall k :: 0 <= k < |gs| ==> docs[k] == Join(gs[k], " ")
  {
    seq(|gs|, k requires 0 <= k < |gs| => Join(gs[k], " "))
  }

  /** The documents `load` keeps for a policy text. */
  function Documents(text: string): seq<string> {
    JoinEach(Groups(CleanLines(SplitLines(text))))
  }

  /** Every stored document is stripped and non-empty. */
  lemma DocumentsTrimmed(text: string)
    ensures forall k :: 0 <= k < |Documents(text)| ==> Documents(text)[k] != "" && IsTrimmed(Documents(text)[k])
  {
    var ls := CleanLines(SplitLines(text));
    var gs := Groups(ls);
    GroupsFlatten(ls);
    GroupsNonEmpty(ls);
    assert forall j :: 0 <= j < |ls| ==> ls[j] != "" && IsTrimmed(ls[j]);
    forall k | 0 <= k < |gs|
      ensures Join(gs[k], " ") != "" && IsTrimmed(Join(gs[k], " "))
    {
      GroupLinesClean(gs, ls, k);
      JoinTrimmed(gs[k]);
    }
  }

  /** Every line of a group is one of the cleaned lines. */
  lemma {:induction false} GroupLinesClean(gs: seq<seq<string>>, ls: seq<string>, k: nat)
    requires Flatten(gs) == ls && k < |gs|
    requires forall j :: 0 <= j < |ls| ==> ls[j] != "" && IsTrimmed(ls[j])
    ensures forall j :: 0 <= j < |gs[k]| ==> gs[k][j] != "" && IsTrimmed(gs[k][j])
  {
    if k == 0 {
      assert forall j :: 0 <= j < |gs[0]| ==> gs[0][j] == ls[j];
    } else {
      var rest := Flatten(gs[1..]);
      assert ls == gs[0] + rest;
      assert forall j :: 0 <= j < |rest| ==> rest[j] == ls[|gs[0]| + j];
      GroupLinesClean(gs[1..], rest, k - 1);
    }
  }

  /** The store after `load`: the documents, and whether an index has been built. */
  datatype PolicyIndex = PolicyIndex(documents: seq<string>, indexed: bool)

  /** What the loop of `load` holds after the cleaned lines `ls`: finished documents and the open buffer. */
  ghost predicate LoadInv(ls: seq<string>, buffer: string, docs: seq<string>) {
    var gs := Groups(ls);
    && (gs == [] ==> buffer == "" && docs == [])
    && (gs != [] ==>
          && (buffer == Join(gs[|gs| - 1], " ") || buffer == " " + Join(gs[|gs| - 1], " "))
          && docs == JoinEach(gs[..|gs| - 1]))
  }

  /** A stripped document is unchanged by stripping, with or without one leading space. */
  lemma TrimDocument(d: string)
    requires IsTrimmed(d)
    ensures Trim(d) == d && Trim(" " + d) == d
  {
    TrimLeadingSpace(d);
    TrimTrimmed(d);
  }

  lemma JoinEachSnoc(gs: seq<seq<string>>)
    requires gs != []
    ensures JoinEach(gs) == JoinEach(gs[..|gs| - 1]) + [Join(gs[|gs| - 1], " ")]
  {
  }

  /** Closing the open buffer yields the last document. */
  lemma FlushBuffer(ls: seq<string>, buffer: string, docs: seq<string>)
    requires LoadInv(ls, buffer, docs)
    requires forall k :: 0 <= k < |ls| ==> ls[k] != "" && IsTrimmed(ls[k])
    ensures buffer != "" <==> Groups(ls) != []
    ensures buffer != "" ==> docs + [Trim(buffer)] == JoinEach(Groups(ls))
    ensures buffer == "" ==> docs == JoinEach(Groups(ls))
  {
    var gs := Groups(ls);
    if gs != [] {
      var last := gs[|gs| - 1];
      GroupsFlatten(ls);
      GroupsNonEmpty(ls);
      GroupLinesClean(gs, ls, |gs| - 1);
      JoinTrimmed(last);
      TrimDocument(Join(last, " "));
      JoinEachSnoc(gs);
    }
  }

  lemma CleanLinesSnoc(raw: seq<string>, i: nat)
    requires i < |raw|
    ensures Trim(raw[i]) != "" ==> CleanLines(raw[..i + 1]) == CleanLines(raw[..i]) + [Trim(raw[i])]
    ensures Trim(raw[i]) == "" ==> CleanLines(raw[..i + 1]) == CleanLines(raw[..i])
  {
    assert raw[..i + 1][..i] == raw[..i];
    assert CleanLines(raw[..i]) + [] == CleanLines(raw[..i]);
  }

  /** A heading flushes the buffer and starts the next one. */
  lemma HeadingStep(ls: seq<string>, buffer: string, docs: seq<string>, line: string)
    requires LoadInv(ls, buffer, docs)
    requires forall k :: 0 <= k < |ls| ==> ls[k] != "" && IsTrimmed(ls[k])
    requires IsHeading(line)
    ensures LoadInv(ls + [line], line, if buffer != "" then docs + [Trim(buffer)] else docs)
  {
    var gs := Groups(ls);
    FlushBuffer(ls, buffer, docs);
    GroupsSnocHeading(ls, line);
    assert (gs + [[line]])[..|gs|] == gs;
  }

  /** A heading opens a new group. */
  lemma GroupsSnocHeading(ls: seq<string>, line: string)
    requires IsHeading(line)
    ensures Groups(ls + [line]) == Groups(ls) + [[line]]
  {
    assert (ls + [line])[..|ls|] == ls;
  }

  /** A line that is not a heading joins the last group. */
  lemma GroupsSnocText(ls: seq<string>, line: string)
    requires !IsHeading(line) && Groups(ls) != []
    ensures var gs := Groups(ls);
      Groups(ls + [line]) == gs[..|gs| - 1] + [gs[|gs| - 1] + [line]]
  {
    assert (ls + [line])[..|ls|] == ls;
  }

  /** Any other line is appended to the buffer after one space. */
  lemma TextStep(ls: seq<string>, buffer: string, docs: seq<string>, line: string)
    requires LoadInv(ls, buffer, docs)
    requires !IsHeading(line)
    ensures LoadInv(ls + [line], buffer + " " + line, docs)
  {
    var gs := Groups(ls);
    if gs == [] {
      assert (ls + [line])[..|ls|] == ls;
      assert Groups(ls + [line]) == [[line]];
    } else {
      var last := gs[|gs| - 1];
      JoinSnoc(last, line);
      GroupsSnocText(ls, line);
      var gs' := gs[..|gs| - 1] + [last + [line]];
      assert gs'[..|gs'| - 1] == gs[..|gs| - 1];
      assert gs'[|gs'| - 1] == last + [line];
    }
  }

  /**
   * `load`, after the file is read: documents cut at headings, each stripped; an empty
   * result is the ValueError (`ok` false), which leaves the previous index in place.
   */
  method Load(store: PolicyIndex, text: string) returns (store': PolicyIndex, ok: bool)
    ensures store'.documents == Documents(text)
    ensures ok <==> |store'.documents| > 0
    ensures ok ==> store'.indexed
    ensures !ok ==> store'.indexed == store.indexed
  {
    var raw := SplitLines(text);
    var docs: seq<string> := [];
    var buffer := "";
    var i := 0;
    ghost var ls: seq<string> := [];
    while i < |raw|
      invariant 0 <= i <= |raw|
      invariant ls == CleanLines(raw[..i])
      invariant LoadInv(ls, buffer, docs)
    {
      var line := Trim(raw[i]);
      CleanLinesSnoc(raw, i);
      if line != "" {
        if IsHeading(line) {
          HeadingStep(ls, buffer, docs, line);
          if buffer != "" {
            docs := docs + [Trim(buffer)];
          }
          buffer := line;
        } else {
          TextStep(ls, buffer, docs, line);
          buffer := buffer + " " + line;
        }
        ls := ls + [line];
      }
      i := i + 1;
    }
    assert raw[..|raw|] == raw;
    FlushBuffer(CleanLines(raw), buffer, docs);
    if buffer != "" {
      docs := docs + [Trim(buffer)];
    }
    if docs == [] {
      store' := PolicyIndex(docs, store.indexed);
      ok := false;
    } else {
      store' := PolicyIndex(docs, true);
      ok := true;
    }
  }

  /**
   * `search`: None for a falsy query or before any index exists, and None when the nearest
   * neighbour's position is outside the documents; otherwise that document.
   */
  function Search(store: PolicyIndex, query: Option<string>, nearest: int): (r: Option<string>)
    ensures !Truthy(query) || !store.indexed ==> r.None?
    ensures r.Some? ==> r.value in store.documents
    ensures Truthy(query) && store.indexed && 0 <= nearest < |store.documents| ==> r == Some(store.documents[nearest])
    ensures !(0 <= nearest < |store.documents|) ==> r.None?
  {
    if !Truthy(query) || !store.indexed then None
    else if nearest < 0 || nearest >= |store.documents| then None
    else Some(store.documents[nearest])
  }

  /**
   * After a `load` that found documents, a search answers with the document the index picks,
   * and with nothing when the index picks a position outside them.
   */
  lemma SearchAfterLoad(text: string, query: Option<string>, nearest: int)
    requires Documents(text) != [] && Truthy(query)
    ensures var r := Search(PolicyIndex(Documents(text), true), query, nearest);
      && (0 <= nearest < |Documents(text)| ==> r == Some(Documents(text)[nearest]))
      && (!(0 <= nearest < |Documents(text)|) ==> r.None?)
      && (r.Some? ==> r.value != "" && IsTrimmed(r.value))
  {
    DocumentsTrimmed(text);
  }
}
